=== FILE: README.md ===
# taskflow-mcp: the task workflow, modelled in Dafny

taskflow-mcp is an MCP server that keeps one folder per task under `.tasks/`.
Each folder holds up to three artifacts, written in a fixed order:
`INVESTIGATION.md`, then `SOLUTION_PLAN.md`, then `CHECKLIST.json`. The
checklist is a JSON array of items with a `label`, a `status` (`pending`,
`in-progress` or `done`) and optional `notes`.

This project models the server's core in `taskflow_mcp/server.py`:

- the path join `task_path`;
- `CHECKLIST_SCHEMA` as a predicate;
- the four writer tools `create_investigation`, `create_solution_plan`,
  `create_checklist` and `update_checklist`;
- the resource lister (which files it offers, under which URI and MIME type);
- the resource reader's URI parsing;
- the `call_tool` dispatcher.

The filesystem is a value: a map from path to content plus a set of
directories. Every operation returns the new filesystem together with an
`Ok` result or the exception Python would raise. Some calls change the
filesystem and then fail, so an error result can still carry a changed
filesystem.

Files, one module each:

| file | module | contents |
|---|---|---|
| outcomes.dfy | `Outcomes` | `Result`, `Option`, and the Python exceptions as `TaskError` |
| json.dfy | `JsonValues` | JSON values |
| paths.dfy | `Paths` | POSIX `os.path.join`/`dirname` on strings, `task_path` |
| schema.dfy | `Schema` | `CHECKLIST_SCHEMA` and a typed view of checklist items |
| filesystem.dfy | `FileSystem` | `exists`, `makedirs`, `open(..., "w")`, `read` |
| workflow.dfy | `Workflow` | the four writers; corrected writers and the workflow-order invariant |
| resources.dfy | `Resources` | `list_task_resources_sync`, `read_task_resource` |
| dispatch.dfy | `Dispatch` | `call_tool` |
| granular.dfy | `Granular` | extension: add, set-status and remove a checklist item by label |

`Granular` models three operations that `taskflow_mcp/server.py` does not
contain. `tests/test_server.py` imports and calls them, so the tests target a
later revision than this source. Their contracts come only from what those
tests assert. The rest of the model does not depend on this module.

## Model

| member | source | states |
|---|---|---|
| Paths.Join | taskflow_mcp/server.py:60 | `os.path.join`: an absolute component replaces everything before it; otherwise the result is the left part, with a separator added if needed, followed by the right part verbatim |
| Paths.TaskPath | taskflow_mcp/server.py:50-60 | `task_path` computes `os.path.join(BASE_DIR, task_id, filename)` as two joins; what it gives is stated by `Paths.TaskPathShape`, `Paths.TaskPathNested`, `Paths.TaskPathAbsolute` and `Paths.TaskPathInjective` below |
| Paths.TaskPathShape | taskflow_mcp/server.py:50-60 | a task file is its task's separator-terminated prefix followed by the relative file name |
| Paths.TaskPathNested | taskflow_mcp/server.py:50-60 | for a non-empty relative task id without a trailing `/`, the path is `.tasks/<task_id>/<filename>`, and a `/` inside the task id stays a nested directory |
| Paths.TaskPathAbsolute | taskflow_mcp/server.py:50-60 | an absolute task id without a trailing `/` discards `.tasks`, so the result is `<task_id>/<filename>`; nothing confines a task to the base folder |
| Paths.TaskPathInjective | taskflow_mcp/server.py:50-60 | two task paths with separator-free file names are equal only if the names are equal and the task prefixes are equal |
| Paths.TaskPathsDistinct | taskflow_mcp/server.py:50-60 | different artifact names never give the same path, whatever the task ids |
| Paths.DirName | taskflow_mcp/server.py:174 | `os.path.dirname`: everything up to the last separator, with trailing separators removed unless only separators remain; on task files it is described by `Paths.TaskDirIndependentOfFile` and `Paths.TaskDirNested` |
| Paths.TaskDirIndependentOfFile | taskflow_mcp/server.py:173-174 | the folder `os.path.dirname` gives for a task file is the same for every artifact of that task, and is never empty |
| Paths.TaskDirNested | taskflow_mcp/server.py:173-174 | for an ordinary task id, that folder is `.tasks/<task_id>` |
| Schema.ParseStatus | taskflow_mcp/server.py:39 | a status string is accepted exactly when it is in the enum, and the accepted value prints back as the same string |
| Schema.DecodeItem | taskflow_mcp/server.py:35-44 | a JSON value has a typed item view exactly when it meets the item schema: required `label` and `status`, optional string-or-null `notes`, no other key |
| Schema.DecodeChecklist | taskflow_mcp/server.py:33-45 | a JSON value decodes exactly when it is an array of schema items; it decodes element by element, keeping the length |
| Schema.DecodeEncodeChecklist | taskflow_mcp/server.py:33-45 | decoding an encoded item list gives the list back |
| Schema.EncodeDecodeChecklist | taskflow_mcp/server.py:33-45 | every value that meets the schema is the encoding of its decoded items, so the typed view loses nothing |
| FileSystem.MakeDirs | taskflow_mcp/server.py:174 | `makedirs(exist_ok=True)` succeeds exactly when the name is not empty and no regular file is in the way; it adds the folder and all its ancestors and touches no file |
| FileSystem.Write | taskflow_mcp/server.py:175-176 | opening for writing fails on a directory ("Is a directory") or a missing parent (FileNotFoundError); otherwise it replaces exactly one file and leaves every other file and every folder as it was |
| FileSystem.Read | taskflow_mcp/server.py:150-151 | reading succeeds exactly on a path that is a regular file and gives its content |
| FileSystem.MakeDirsKeepsWellFormed | taskflow_mcp/server.py:174 | `makedirs` keeps the filesystem well formed: no path is both a file and a folder, and every file sits in an existing folder |
| FileSystem.WriteKeepsWellFormed | taskflow_mcp/server.py:175-176 | a successful `open(path, "w")` keeps the filesystem well formed |
| FileSystem.ReadAfterWrite | taskflow_mcp/server.py:150-151 | reading a path just written returns exactly what was written |
| Workflow.CreateInvestigation | taskflow_mcp/server.py:160-177 | has no precondition; succeeds exactly when the task folder can be made and `INVESTIGATION.md` is not a directory; replaces that one file with the content; otherwise fails with the OS error and no file changes |
| Workflow.CreateSolutionPlan | taskflow_mcp/server.py:180-202 | "Cannot create SOLUTION_PLAN.md without INVESTIGATION.md" exactly when the investigation path does not exist; any failure changes nothing; success replaces only `SOLUTION_PLAN.md`, whatever it held before |
| Workflow.NoneAsEmpty | taskflow_mcp/server.py:227-228 | a `None` checklist becomes the empty array; any other value is passed on unchanged |
| Workflow.CreateChecklist | taskflow_mcp/server.py:205-233 | the plan check comes first, then the schema check on `None`-as-`[]`, and each fails exactly in its case without writing; success writes exactly the validated value, replacing the old checklist rather than merging |
| Workflow.UpdateChecklist | taskflow_mcp/server.py:236-260 | validates before the existence check: ValidationError exactly for a non-schema checklist, "CHECKLIST.json not found" exactly for a valid one whose file does not exist; success replaces the file, and an existing regular file with a valid checklist always succeeds |
| Workflow.SolutionPlanWritable | taskflow_mcp/server.py:196-202 | once the investigation is a regular file, the plan write fails only if the plan path is a directory |
| Workflow.ChecklistWritable | taskflow_mcp/server.py:224-233 | once the plan is a regular file, a valid checklist is written unless the checklist path is a directory |
| Workflow.ArtifactsDistinct | taskflow_mcp/server.py:196-230 | an investigation path is never a plan or checklist path, and a plan path is never a checklist path, whatever the two task ids (two different ids can still share an artifact path, as `t` and `t/` do) |
| Workflow.CreateSolutionPlanStrict | taskflow_mcp/server.py:196-198 | corrected guard: the plan is refused exactly when the investigation is not a regular file |
| Workflow.CreateChecklistStrict | taskflow_mcp/server.py:224-226 | corrected guard: the checklist is refused exactly when the plan is not a regular file; otherwise it behaves as `create_checklist` |
| Workflow.UpdateKeepsOrder | taskflow_mcp/server.py:254-260 | `update_checklist` never creates a file, so it keeps the workflow order |
| Workflow.ApplyStrictKeepsOrder | taskflow_mcp/server.py:160-260 | each writer call, with the corrected guards, keeps the invariant "plan file implies investigation file, checklist file implies plan file" for every task |
| Workflow.RunStrictKeepsOrder | taskflow_mcp/server.py:160-260 | any sequence of writer calls, failed calls included, keeps that invariant |
| Workflow.ExistsGuardAdmitsDirectory | taskflow_mcp/server.py:173-174 | as written: from an empty filesystem, creating the investigation of task `t/SOLUTION_PLAN.md` makes the folder that is task `t`'s plan path; `create_checklist("t")` then succeeds with no plan file, breaking the order |
| Workflow.PlanFolderAdmitsChecklist | taskflow_mcp/server.py:224-233 | whenever a task's plan path is a folder and not a file, and the checklist path is not a folder and has an existing parent, `create_checklist` writes the checklist anyway, leaving the task out of order |
| Workflow.ExistsGuardAdmitsDirectoryExample | taskflow_mcp/server.py:224-226 | the concrete instance with task ids `t/SOLUTION_PLAN.md` and `t` |
| Resources.MimeType | taskflow_mcp/server.py:86-91 | `.md` gives `text/markdown`; `.json` gives `application/json`, unless the name also ends in `.md`; every other name gives `text/plain` |
| Resources.ArtifactMimeTypes | taskflow_mcp/server.py:82-91 | the two markdown artifacts are served as markdown and the checklist as JSON, so `text/plain` is never used for a task file |
| Resources.EntryResources | taskflow_mcp/server.py:79-100 | an entry that is a folder offers a resource for each artifact that exists in it, and only those; an entry that is not a folder offers nothing |
| Resources.ResourceFor | taskflow_mcp/server.py:93-99 | the resource for a task file: its URI is `task://` followed by `task_id/fname`, its name is the file name and its MIME type is chosen from that name |
| Resources.ResourceForInjective | taskflow_mcp/server.py:93-99 | for separator-free entry names, a resource determines the entry and the file it was built from |
| Resources.ListEntries | taskflow_mcp/server.py:78-101 | over all entries, the lister offers every existing artifact of every folder entry, and everything it offers is such an artifact |
| Resources.EntryResourcesNoRepeats | taskflow_mcp/server.py:82-100 | one entry offers each of its artifacts at most once |
| Resources.ListEntriesNoRepeats | taskflow_mcp/server.py:78-101 | distinct entry names give a listing in which no resource occurs twice |
| Resources.ListTaskResources | taskflow_mcp/server.py:66-101 | given the entries `os.listdir` returns (every name directly inside `.tasks`, each once, in any order): nothing when `.tasks` is absent; fails exactly when `.tasks` is a regular file; otherwise every existing artifact of every task folder directly under `.tasks` is listed, nothing else is, and nothing is listed twice |
| Resources.SplitOnce | taskflow_mcp/server.py:140 | `split("/", 1)` gives one part exactly when there is no separator, otherwise the text before the first separator and the rest |
| Resources.ResolveUri | taskflow_mcp/server.py:134-145 | a URI without the `task://` prefix is rejected; otherwise slicing at 6 keeps a leading `/`, so the path is `.tasks/` plus everything after `task://`, or that rest alone when it is absolute |
| Resources.ReadTaskResource | taskflow_mcp/server.py:118-151 | propagates the URI error; "Resource not found" when the path does not exist; succeeds exactly on a regular file and returns its content |
| Resources.ListerUriResolves | taskflow_mcp/server.py:95 | the URI the lister builds for a task entry resolves to that entry's task path |
| Resources.ListedResourceReadable | taskflow_mcp/server.py:134-151 | every existing artifact of a task folder is in the listing and reads back through its URI, giving the very file listed; only an artifact that is a directory is listed but unreadable |
| Resources.AbsoluteUriEscapesBase | taskflow_mcp/server.py:139-145 | `task://` followed by an absolute path resolves to that path, outside `.tasks` |
| Dispatch.CallTool | taskflow_mcp/server.py:343-378 | unknown names fail with "Unknown tool: name" and change nothing; a missing `task_id` is a KeyError; success is one text content; a non-string task id changes nothing; only non-string content changes a file and then fails; only the named task's three artifacts can change; folders are never removed; well-formedness is kept |
| Dispatch.InvestigationDefault | taskflow_mcp/server.py:362-365 | without `content`, `create_investigation` writes `# Investigation\n\n` |
| Dispatch.SolutionPlanDefault | taskflow_mcp/server.py:367-370 | without `content`, `create_solution_plan` writes `# Solution Plan\n\n` and keeps the investigation precondition |
| Dispatch.EmptyChecklistCreated | taskflow_mcp/server.py:224-233 | on a well-formed filesystem where the plan is a regular file and the checklist path is not a directory, the empty checklist is written; a null checklist is the same call as an empty one |
| Dispatch.ChecklistDefault | taskflow_mcp/server.py:372 | on a well-formed filesystem where the plan is a regular file and the checklist path is not a directory, a missing or null `checklist` writes `[]` and reports it in one text content |
| Dispatch.UpdateValidatesFirst | taskflow_mcp/server.py:374 | `update_checklist` rejects an invalid checklist with ValidationError whatever the task id is, and changes nothing |
| Dispatch.NonTextContentTruncates | taskflow_mcp/server.py:362-365 | when the task folder can be made and `INVESTIGATION.md` is not a directory, content that is not a string empties `INVESTIGATION.md` and then fails with a TypeError |
| Dispatch.CallToolRoutes | taskflow_mcp/server.py:361-378 | a well-typed call gives the named writer's reply, wrapped as text |
| Granular.FirstWithLabel | tests/test_server.py:255 | the first item with the label, as `next(...)` finds it, or none |
| Granular.Without | tests/test_server.py:259-262 | drops every item with the label and keeps every other item as often as it occurred |
| Granular.WithoutConcat | tests/test_server.py:259-262 | the filter works piecewise over a concatenation, so the kept items stay in their original order |
| Granular.AddItem | tests/test_server.py:247-250 | a label already present is refused with "Checklist item already exists with this label"; otherwise a pending item with that label is appended and nothing else changes |
| Granular.SetStatus | tests/test_server.py:252-257 | an invalid status is refused exactly when it is outside the enum; an absent label gives "Checklist item not found"; a valid status with a present label always succeeds, the first item with the label getting the status, and the notes when given; all other items stay as they were |
| Granular.RemoveItem | tests/test_server.py:259-262 | "Checklist item not found" exactly when no item has the label; otherwise no item has the label afterwards and every other item is kept as often as it occurred |
| Granular.WithoutAbsent | tests/test_server.py:259-262 | the filter behind remove leaves a list in which no item has the label exactly as it was |
| Granular.AddSetRemoveRestores | tests/test_server.py:247-262 | the tested sequence (add a fresh label, set its status and notes, remove it) gives back the checklist it started from |
| Granular.LoadChecklist | tests/test_server.py:264-273 | a missing CHECKLIST.json is "CHECKLIST.json not found"; loaded items are exactly what the file encodes |
| Granular.StoreChecklist | tests/test_server.py:249 | writing the items replaces only CHECKLIST.json, and loading it again gives the same items |
| Granular.AddChecklistItem | tests/test_server.py:247-289 | needs an existing checklist; a label already in the stored checklist is refused with "Checklist item already exists with this label" and changes nothing; a fresh label on a loadable checklist in a well-formed filesystem always succeeds; a success is `AddItem` on the stored items, with the label present as pending, rewrites only CHECKLIST.json, and what was returned is what is stored |
| Granular.SetChecklistItemStatus | tests/test_server.py:252-321 | an invalid status is refused before the file is looked at; then a missing checklist is "CHECKLIST.json not found" and an absent label "Checklist item not found", each changing nothing; a valid status with a present label on a loadable checklist in a well-formed filesystem always succeeds; a success is `SetStatus` on the stored items, so every other item is unchanged, and rewrites only CHECKLIST.json |
| Granular.RemoveChecklistItem | tests/test_server.py:259-337 | needs an existing checklist; an absent label is "Checklist item not found" and changes nothing; a present label on a loadable checklist in a well-formed filesystem is always removed; a success is `RemoveItem` on the stored items, so no stored item has the label and every other item is kept, and rewrites only CHECKLIST.json |

## Left out

- MCP transport, `main`, `list_tools` metadata and the `list_task_resources` wrapper. These are framework glue with no logic of their own.
- Async execution and concurrency. Calls are modelled one at a time.
- JSON serialisation with `indent=2`. `CHECKLIST.json` holds the JSON value itself, not its text.
- Numbers inside checklist JSON are modelled as integers only, because the schema never constrains them.
- `os.listdir` is a parameter of the lister, required to name exactly the entries directly inside `.tasks`, each once. Its order comes from the operating system and is left free.
- `AnyUrl` parsing and normalisation of the resource URI. The lister and the reader work on the URI text as given. Under the URL standard's host rules, `AnyUrl(f"task://{task_id}/{fname}")` at taskflow_mcp/server.py:95 rejects a folder name containing a space, which makes the whole listing raise, and percent-encodes a non-ASCII name, which makes the resource fail to read back. Reading bytes and text encodings are not modelled.
- Paths are not normalised. The model's filesystem is keyed by the path text, so each spelling of a path is a distinct file, whereas the operating system treats `a//b`, `a/./b`, `a/x/../b` and a trailing `/` as the same file as `a/b`. For task ids containing `//`, `.`, `..` or a trailing `/`, the existence guards can therefore disagree with the program. For example, after `create_investigation("a", "x")`, the model refuses `create_solution_plan("a//", "y")`, because `.tasks/a//INVESTIGATION.md` is not a key, while `os.path.exists` at taskflow_mcp/server.py:197 finds the file and the program writes the plan. Symbolic links and permissions are not modelled. The only OS failures modelled are a directory where a file is expected, a missing parent, and a file in the way of `makedirs`.
- The `jsonschema` library is modelled only by the checklist schema it is given. Its error messages are reduced to `ValidationError`.
- Resources.ListTaskResources: promises completeness only when `.tasks` is a directory. In the model, a listed folder can exist without its parent. The case where `.tasks` is absent returns an empty list, as the code does. Its "fails exactly when `.tasks` is a regular file" holds in the program only when every task folder name is one `AnyUrl` accepts unchanged (see the `AnyUrl` line above).
- Resources.ListedResourceReadable: the lister-to-reader round trip holds in the program only for folder names that `AnyUrl` leaves unchanged; a percent-encoded name no longer reads back.
- Granular: the tests leave some details open, and the model chooses them. A new item has no `notes` key. `set_checklist_item_status` checks the status before it loads the checklist. A successful call returns the new item list. Content of `CHECKLIST.json` outside the schema is refused with ValidationError.
- Dispatch.CallTool: uses the writers as written, not the corrected `Strict` writers of the finding below, because it models the dispatcher of the shown code.
- The tests target a later revision than the code: tests/test_server.py:12-25, 55 and 134 call write_*/read_* operations and expect "Wrote …" and "Cannot write …", and tests/test_logging.py:24 patches a `WORKING_DIR`. The code has create_*/update_checklist, "Created …"/"Updated …"/"Cannot create …" messages and the relative `.tasks`; the model follows the code.

## Findings

| source | as written | input that shows it | evidently intended | confidence | as-written member | corrected member |
|---|---|---|---|---|---|---|
| taskflow_mcp/server.py:197 | the order guards use `os.path.exists`, which a directory satisfies, and `task_path` keeps `/` in a task id as nested folders | `create_investigation("t/SOLUTION_PLAN.md", "x")` creates the folder `.tasks/t/SOLUTION_PLAN.md`; then `create_checklist("t")` succeeds although task `t` has no plan or investigation file | an artifact may be created only when the previous artifact exists as a file (`os.path.isfile`), so that a plan file implies an investigation file and a checklist file implies a plan file | not executed | Workflow.ExistsGuardAdmitsDirectory | Workflow.RunStrictKeepsOrder |

=== FILE: dispatch.dfy ===
/**
  call_tool (server.py:343-378): routes a tool name and a JSON argument object
  to one of the four writers and wraps the confirmation in a single text
  content.

  Arguments arrive as JSON values, so the dispatcher also models what Python
  does with a missing or ill-typed argument: `arguments["task_id"]` raises a
  KeyError, `os.path.join` raises a TypeError for a task id that is not a
  string, and `f.write` raises a TypeError for content that is not a string,
  after `open(path, "w")` has already emptied the file.
 */
module Dispatch {
  import opened Outcomes
  import opened JsonValues
  import opened Paths
  import opened Schema
  import opened FileSystem
  import opened Workflow

  /** `TextContent(type="text", text=...)`; `type` is a reserved word here. */
  datatype TextContent = TextContent(kind: string, text: string)

  const ToolNames: set<string> :=
    {"create_investigation", "create_solution_plan", "create_checklist", "update_checklist"}

  /** `arguments.get(key, default)`. */
  function Get(args: map<string, Json>, key: string, default: Json): (v: Json)
    ensures key in args ==> v == args[key]
    ensures key !in args ==> v == default
  {
    if key in args then args[key] else default
  }

  /** The text handed to `open(path, "w")`: a string's own text, and nothing
      for any other value, which `f.write` rejects only after the truncation. */
  function TextOf(v: Json): string {
    if v.JString? then v.s else ""
  }

  /** The TypeError `f.write` raises for non-string content once the writer
      itself has succeeded; a writer that failed earlier keeps its own error. */
  function RequireText(r: Reply<string>, content: Json): Reply<string> {
    if content.JString? || r.out.Err? then r else Reply(r.fs, Err(TypeError("content")))
  }

  /** `[TextContent(type="text", text=result)]`. */
  function Wrap(r: Reply<string>): Reply<seq<TextContent>> {
    match r.out
    case Ok(s) => Reply(r.fs, Ok([TextContent("text", s)]))
    case Err(e) => Reply(r.fs, Err(e))
  }

  /** The three files a task id names. */
  function ArtifactPaths(taskId: string): set<string> {
    {InvestigationPath(taskId), PlanPath(taskId), ChecklistPath(taskId)}
  }

  /** A path whose content differs between two filesystems. */
  predicate Changed(before: FileSystem, after: FileSystem, p: string) {
    p in after.files && (p !in before.files || after.files[p] != before.files[p])
  }

  function CallTool(fs: FileSystem, name: string, args: map<string, Json>): (r: Reply<seq<TextContent>>)
    ensures name !in ToolNames ==> r == Reply(fs, Err(ValueError("Unknown tool: " + name)))
    ensures name in ToolNames && "task_id" !in args ==> r == Reply(fs, Err(KeyError("task_id")))
    ensures name == "update_checklist" && "task_id" in args && "checklist" !in args
        ==> r == Reply(fs, Err(KeyError("checklist")))
    ensures r.out.Ok? ==> name in ToolNames && "task_id" in args && args["task_id"].JString?
    ensures r.out.Ok? ==> |r.out.value| == 1 && r.out.value[0].kind == "text"
    ensures "task_id" in args && !args["task_id"].JString? ==> r.fs == fs
    ensures r.out.Err? && r.fs.files != fs.files ==> r.out.error == TypeError("content")
    ensures forall p :: Changed(fs, r.fs, p) ==>
      "task_id" in args && args["task_id"].JString? && p in ArtifactPaths(args["task_id"].s)
    ensures fs.dirs <= r.fs.dirs
    ensures WellFormed(fs) ==> WellFormed(r.fs)
  {
    if name !in ToolNames then Reply(fs, Err(ValueError("Unknown tool: " + name)))
    else if "task_id" !in args then Reply(fs, Err(KeyError("task_id")))
    else if name == "update_checklist" then
      if "checklist" !in args then Reply(fs, Err(KeyError("checklist")))
      else
        var checklist := args["checklist"];
        var taskId := args["task_id"];
        if !IsChecklist(checklist) then Reply(fs, Err(ValidationError))
        else if !taskId.JString? then Reply(fs, Err(TypeError("task_id")))
        else Wrap(UpdateChecklist(fs, taskId.s, checklist))
    else
      var taskId := args["task_id"];
      if !taskId.JString? then Reply(fs, Err(TypeError("task_id")))
      else if name == "create_investigation" then
        var content := Get(args, "content", JString(DefaultInvestigation));
        Wrap(RequireText(CreateInvestigation(fs, taskId.s, TextOf(content)), content))
      else if name == "create_solution_plan" then
        var content := Get(args, "content", JString(DefaultSolutionPlan));
        Wrap(RequireText(CreateSolutionPlan(fs, taskId.s, TextOf(content)), content))
      else
        Wrap(CreateChecklist(fs, taskId.s, Get(args, "checklist", JArray([]))))
  }

  // ---------------------------------------------------------------------
  // Routing and defaults
  // ---------------------------------------------------------------------

  /** Without `content`, create_investigation writes the investigation template. */
  lemma InvestigationDefault(fs: FileSystem, taskId: string)
    ensures var r := CallTool(fs, "create_investigation", map["task_id" := JString(taskId)]);
            && r.fs == CreateInvestigation(fs, taskId, DefaultInvestigation).fs
            && (r.out.Ok? <==> InvestigationPath(taskId) !in fs.dirs && TaskDirCreatable(fs, taskId))
            && (r.out.Ok? ==> r.fs.files[InvestigationPath(taskId)] == Text("# Investigation\n\n"))
  {
  }

  /** Without `content`, create_solution_plan writes the plan template. */
  lemma SolutionPlanDefault(fs: FileSystem, taskId: string)
    ensures var r := CallTool(fs, "create_solution_plan", map["task_id" := JString(taskId)]);
            && r.fs == CreateSolutionPlan(fs, taskId, DefaultSolutionPlan).fs
            && (!Exists(fs, InvestigationPath(taskId)) ==> r.out == Err(ValueError(NoInvestigationMessage)))
            && (r.out.Ok? ==> r.fs.files[PlanPath(taskId)] == Text("# Solution Plan\n\n"))
  {
  }

  /** Once the plan is a file, the empty checklist is always written, and a
      null checklist is written as the empty one. */
  lemma EmptyChecklistCreated(fs: FileSystem, taskId: string)
    requires WellFormed(fs) && PlanPath(taskId) in fs.files && ChecklistPath(taskId) !in fs.dirs
    ensures CreateChecklist(fs, taskId, JArray([])).out == Ok("Created " + ChecklistPath(taskId))
    ensures CreateChecklist(fs, taskId, JNull) == CreateChecklist(fs, taskId, JArray([]))
  {
    ArtifactNames();
    TaskDirIndependentOfFile(taskId, SolutionPlanFile, ChecklistFile);
    assert ParentExists(fs, PlanPath(taskId));
  }

  /** Without `checklist`, and with an explicit null, create_checklist writes
      the empty array once the plan exists. */
  lemma ChecklistDefault(fs: FileSystem, taskId: string, explicitNull: bool)
    requires WellFormed(fs) && PlanPath(taskId) in fs.files && ChecklistPath(taskId) !in fs.dirs
    ensures var args := if explicitNull then map["task_id" := JString(taskId), "checklist" := JNull]
                        else map["task_id" := JString(taskId)];
            var r := CallTool(fs, "create_checklist", args);
            && r.out == Ok([TextContent("text", "Created " + ChecklistPath(taskId))])
            && r.fs.files[ChecklistPath(taskId)] == JsonDoc(JArray([]))
  {
    EmptyChecklistCreated(fs, taskId);
    if explicitNull {
      ChecklistRoutes(fs, "create_checklist", taskId, JNull);
    } else {
      MissingChecklistRoute(fs, taskId);
    }
  }

  /** Without `checklist`, create_checklist is called with the empty array. */
  lemma MissingChecklistRoute(fs: FileSystem, taskId: string)
    ensures CallTool(fs, "create_checklist", map["task_id" := JString(taskId)])
            == Wrap(CreateChecklist(fs, taskId, JArray([])))
  {
    var args := map["task_id" := JString(taskId)];
    assert Get(args, "checklist", JArray([])) == JArray([]);
  }

  /** update_checklist validates before it looks at the task id or the file:
      an invalid checklist is a ValidationError whatever else is wrong. */
  lemma UpdateValidatesFirst(fs: FileSystem, taskId: Json, checklist: Json)
    requires !IsChecklist(checklist)
    ensures CallTool(fs, "update_checklist", map["task_id" := taskId, "checklist" := checklist])
            == Reply(fs, Err(ValidationError))
  {
  }

  /** Content that is not a string still empties the investigation file, and
      the call then reports a TypeError. */
  lemma NonTextContentTruncates(fs: FileSystem, taskId: string, content: Json)
    requires !content.JString?
    requires InvestigationPath(taskId) !in fs.dirs && TaskDirCreatable(fs, taskId)
    ensures var r := CallTool(fs, "create_investigation", map["task_id" := JString(taskId), "content" := content]);
            && r.out == Err(TypeError("content"))
            && r.fs.files[InvestigationPath(taskId)] == Text("")
  {
  }

  /** A well-typed call is exactly the named writer's reply, wrapped. */
  lemma CallToolRoutes(fs: FileSystem, taskId: string, content: string, checklist: Json)
    ensures CallTool(fs, "create_investigation", map["task_id" := JString(taskId), "content" := JString(content)])
            == Wrap(CreateInvestigation(fs, taskId, content))
    ensures CallTool(fs, "create_solution_plan", map["task_id" := JString(taskId), "content" := JString(content)])
            == Wrap(CreateSolutionPlan(fs, taskId, content))
    ensures CallTool(fs, "create_checklist", map["task_id" := JString(taskId), "checklist" := checklist])
            == Wrap(CreateChecklist(fs, taskId, checklist))
    ensures CallTool(fs, "update_checklist", map["task_id" := JString(taskId), "checklist" := checklist])
            == Wrap(UpdateChecklist(fs, taskId, checklist))
  {
    ContentRoutes(fs, "create_investigation", taskId, content);
    ContentRoutes(fs, "create_solution_plan", taskId, content);
    ChecklistRoutes(fs, "create_checklist", taskId, checklist);
    ChecklistRoutes(fs, "update_checklist", taskId, checklist);
  }

  /** The content-taking tools with string content. */
  lemma ContentRoutes(fs: FileSystem, name: string, taskId: string, content: string)
    requires name == "create_investigation" || name == "create_solution_plan"
    ensures var r := CallTool(fs, name, map["task_id" := JString(taskId), "content" := JString(content)]);
            r == Wrap(if name == "create_investigation" then CreateInvestigation(fs, taskId, content)
                      else CreateSolutionPlan(fs, taskId, content))
  {
    var args := map["task_id" := JString(taskId), "content" := JString(content)];
    assert Get(args, "content", JString(DefaultInvestigation)) == JString(content);
    assert Get(args, "content", JString(DefaultSolutionPlan)) == JString(content);
  }

  /** The checklist-taking tools with a checklist argument. */
  lemma ChecklistRoutes(fs: FileSystem, name: string, taskId: string, checklist: Json)
    requires name == "create_checklist" || name == "update_checklist"
    ensures var r := CallTool(fs, name, map["task_id" := JString(taskId), "checklist" := checklist]);
            r == Wrap(if name == "create_checklist" then CreateChecklist(fs, taskId, checklist)
                      else UpdateChecklist(fs, taskId, checklist))
  {
    var args := map["task_id" := JString(taskId), "checklist" := checklist];
    assert Get(args, "checklist", JArray([])) == checklist;
  }
}

=== FILE: filesystem.dfy ===
/**
  The filesystem the server works on, as a value: a map from path to file
  content and a set of directory paths. The four primitives the server uses
  (`os.path.exists`/`isdir`, `os.makedirs(..., exist_ok=True)`, `open(..., "w")`
  and `open(...).read()`) are pure functions over it.
 */
module FileSystem {
  import opened Outcomes
  import opened JsonValues
  import opened Paths

  /** Markdown files hold text; CHECKLIST.json holds the JSON value dumped into it. */
  datatype Content = Text(text: string) | JsonDoc(doc: Json)

  datatype FileSystem = FileSystem(files: map<string, Content>, dirs: set<string>)

  /** The new filesystem after a call together with the call's outcome: a
      failing call may still have changed the filesystem before it failed. */
  datatype Reply<+T> = Reply(fs: FileSystem, out: Result<T>)

  const Empty: FileSystem := FileSystem(map[], {})

  /** `os.path.exists`: true for regular files and for directories. */
  predicate Exists(fs: FileSystem, p: string) {
    p in fs.files || p in fs.dirs
  }

  /** The directory a file is opened in exists; a path whose folder is empty
      or only separators lies in the working directory or the root. */
  predicate ParentExists(fs: FileSystem, p: string) {
    AllSeps(DirName(p)) || DirName(p) in fs.dirs
  }

  /** What a real filesystem guarantees: nothing is both a file and a
      directory, and every file sits in an existing directory. */
  predicate WellFormed(fs: FileSystem) {
    forall p :: p in fs.files ==> p !in fs.dirs && ParentExists(fs, p)
  }

  /** The directories `os.makedirs(d)` ensures: `d` and every proper prefix
      of `d` that ends just before a separator. */
  function Ancestors(d: string): (r: set<string>)
    ensures d in r
    ensures forall a :: a in r ==> |a| <= |d|
  {
    (set i | 0 < i < |d| && d[i] == Sep && d[i - 1] != Sep :: d[..i]) + {d}
  }

  /** `os.makedirs(d, exist_ok=True)`. An empty name fails; a root made only of
      separators already exists; a regular file in the way fails. */
  function MakeDirs(fs: FileSystem, d: string): (r: Result<FileSystem>)
    ensures r.Ok? <==> d != "" && (AllSeps(d) || Ancestors(d) !! fs.files.Keys)
    ensures r.Ok? ==> r.value.files == fs.files && fs.dirs <= r.value.dirs
    ensures r.Ok? ==> AllSeps(d) || d in r.value.dirs
    ensures r.Ok? && !AllSeps(d) ==> r.value.dirs == fs.dirs + Ancestors(d)
    ensures r.Err? ==> IsOsError(r.error)
  {
    if d == "" then Err(FileNotFoundError("No such file or directory: ''"))
    else if AllSeps(d) then Ok(fs)
    else if !(Ancestors(d) !! fs.files.Keys) then Err(OSError("File exists"))
    else Ok(fs.(dirs := fs.dirs + Ancestors(d)))
  }

  /** An exception raised by the operating system itself. */
  predicate IsOsError(e: TaskError) {
    e.OSError? || e.FileNotFoundError?
  }

  /** `open(p, "w").write(c)`: replaces or creates the one file `p`. */
  function Write(fs: FileSystem, p: string, c: Content): (r: Result<FileSystem>)
    ensures r.Ok? <==> p !in fs.dirs && ParentExists(fs, p)
    ensures r.Ok? ==> r.value.dirs == fs.dirs
    ensures r.Ok? ==> r.value.files.Keys == fs.files.Keys + {p} && r.value.files[p] == c
    ensures r.Ok? ==> forall q :: q in fs.files && q != p ==> r.value.files[q] == fs.files[q]
    ensures p in fs.dirs ==> r == Err(OSError("Is a directory"))
    ensures p !in fs.dirs && !ParentExists(fs, p) ==> r.Err? && r.error.FileNotFoundError?
  {
    if p in fs.dirs then Err(OSError("Is a directory"))
    else if !ParentExists(fs, p) then Err(FileNotFoundError("No such file or directory"))
    else Ok(fs.(files := fs.files[p := c]))
  }

  /** `open(p).read()`. */
  function Read(fs: FileSystem, p: string): (r: Result<Content>)
    ensures r.Ok? <==> p in fs.files && p !in fs.dirs
    ensures r.Ok? ==> r.value == fs.files[p]
  {
    if p in fs.dirs then Err(OSError("Is a directory"))
    else if p !in fs.files then Err(FileNotFoundError("No such file or directory"))
    else Ok(fs.files[p])
  }

  /** A folder is among the directories made for a path inside it. */
  lemma FolderIsAncestor(q: string, name: string)
    requires q != "" && !EndsWithSep(q)
    ensures q in Ancestors(q + [Sep] + name)
  {
    var d := q + [Sep] + name;
    assert d[|q|] == Sep && d[|q| - 1] == q[|q| - 1];
    assert d[..|q|] == q;
  }

  /** Making the folder `p + a` does not make its sibling `p + b`. */
  lemma SiblingNotAncestor(p: string, a: string, b: string)
    requires EndsWithSep(p) && IsEntryName(a) && IsEntryName(b) && a[0] != b[0]
    ensures p + b !in Ancestors(p + a)
  {
    var d, c := p + a, p + b;
    assert d[|p|] != c[|p|];
    forall i | 0 < i < |d| && d[i] == Sep && d[i - 1] != Sep
      ensures d[..i] != c
    {
    }
  }

  // ---------------------------------------------------------------------
  // The primitives keep a filesystem well formed
  // ---------------------------------------------------------------------

  lemma MakeDirsKeepsWellFormed(fs: FileSystem, d: string)
    requires WellFormed(fs) && MakeDirs(fs, d).Ok?
    ensures WellFormed(MakeDirs(fs, d).value)
  {
    var fs' := MakeDirs(fs, d).value;
    forall p | p in fs'.files
      ensures p !in fs'.dirs && ParentExists(fs', p)
    {
      assert p in fs.files && ParentExists(fs, p);
      assert p !in Ancestors(d) || AllSeps(d);
    }
  }

  /** Writing a file where `open` allows it keeps the filesystem well formed. */
  lemma WriteKeepsWellFormed(fs: FileSystem, p: string, c: Content)
    requires WellFormed(fs) && Write(fs, p, c).Ok?
    ensures WellFormed(Write(fs, p, c).value)
  {
  }

  /** Reading a path just written returns exactly what was written. */
  lemma ReadAfterWrite(fs: FileSystem, p: string, c: Content)
    requires Write(fs, p, c).Ok?
    ensures Read(Write(fs, p, c).value, p) == Ok(c)
  {
  }
}

=== FILE: granular.dfy ===
/**
  Extension: the label-keyed checklist operations add_checklist_item,
  set_checklist_item_status and remove_checklist_item. They are not part of
  taskflow_mcp/server.py as modelled here; tests/test_server.py:247-337 calls
  them, and their contracts below come only from what those tests assert.
  Where the tests are silent (the notes of a new item, which check comes
  first, what a successful call returns) the choices are stated on the
  members.

  The operations load CHECKLIST.json as typed items, change the list, and
  write the whole list back.
 */
module Granular {
  import opened Outcomes
  import opened Schema
  import opened FileSystem
  import opened Workflow

  const DuplicateMessage: string := "Checklist item already exists with this label"
  const InvalidStatusMessage: string := "Invalid status; must be one of: pending, in-progress, done"
  const ItemNotFoundMessage: string := "Checklist item not found"

  predicate HasLabel(items: seq<Item>, key: string) {
    exists i :: 0 <= i < |items| && items[i].name == key
  }

  /** Index of the first item carrying `key`, or -1. */
  function FirstWithLabel(items: seq<Item>, key: string): (i: int)
    ensures -1 <= i < |items|
    ensures i >= 0 ==> items[i].name == key
    ensures forall j :: 0 <= j < |items| && (i < 0 || j < i) ==> items[j].name != key
  {
    if items == [] then -1
    else if items[0].name == key then 0
    else
      var k := FirstWithLabel(items[1..], key);
      if k < 0 then -1 else k + 1
  }

  /** The items without any carrying `key`, the others in their order. */
  function Without(items: seq<Item>, key: string): (r: seq<Item>)
    ensures forall i :: 0 <= i < |r| ==> r[i].name != key
    ensures forall it :: it in r <==> it in items && it.name != key
    ensures forall it :: multiset(r)[it] == if it.name == key then 0 else multiset(items)[it]
    ensures |r| <= |items|
  {
    if items == [] then []
    else
      assert items == [items[0]] + items[1..];
      if items[0].name == key then Without(items[1..], key)
      else [items[0]] + Without(items[1..], key)
  }

  /** The filter works piecewise, so the kept items stay in their order. */
  lemma {:induction false} WithoutConcat(a: seq<Item>, b: seq<Item>, key: string)
    ensures Without(a + b, key) == Without(a, key) + Without(b, key)
  {
    if a == [] {
      assert a + b == b;
    } else {
      assert (a + b)[0] == a[0];
      assert (a + b)[1..] == a[1..] + b;
      WithoutConcat(a[1..], b, key);
    }
  }

  // ---------------------------------------------------------------------
  // The list operations
  // ---------------------------------------------------------------------

  /** add_checklist_item: a fresh label is appended as a pending item without
      notes; a label already present is refused. */
  function AddItem(items: seq<Item>, key: string): (r: Result<seq<Item>>)
    ensures r.Err? <==> HasLabel(items, key)
    ensures r.Err? ==> r.error == ValueError(DuplicateMessage)
    ensures r.Ok? ==> |r.value| == |items| + 1 && r.value[..|items|] == items
    ensures r.Ok? ==> r.value[|items|] == Item(key, Pending, NoNotes)
    ensures r.Ok? ==> FirstWithLabel(r.value, key) == |items|
  {
    if HasLabel(items, key) then Err(ValueError(DuplicateMessage))
    else
      var r := items + [Item(key, Pending, NoNotes)];
      assert forall j :: 0 <= j < |items| ==> r[j] == items[j];
      Ok(r)
  }

  /** set_checklist_item_status: the status is checked first, then the first
      item with the label gets it; its notes change only when notes are given. */
  function SetStatus(items: seq<Item>, key: string, status: string, notes: Option<string>): (r: Result<seq<Item>>)
    ensures r == Err(ValueError(InvalidStatusMessage)) <==> ParseStatus(status).None?
    ensures r == Err(FileNotFoundError(ItemNotFoundMessage))
        <==> ParseStatus(status).Some? && !HasLabel(items, key)
    ensures r.Ok? <==> ParseStatus(status).Some? && HasLabel(items, key)
    ensures r.Ok? ==> |r.value| == |items|
    ensures r.Ok? ==> var k := FirstWithLabel(items, key);
      && k >= 0
      && FirstWithLabel(r.value, key) == k
      && r.value[k].name == key
      && StatusName(r.value[k].status) == status
      && (notes.Some? ==> r.value[k].notes == Note(notes.value))
      && (notes.None? ==> r.value[k].notes == items[k].notes)
      && (forall j :: 0 <= j < |items| && j != k ==> r.value[j] == items[j])
  {
    match ParseStatus(status)
    case None => Err(ValueError(InvalidStatusMessage))
    case Some(st) =>
      var k := FirstWithLabel(items, key);
      if k < 0 then Err(FileNotFoundError(ItemNotFoundMessage))
      else
        var prior := items[k];
        var updated := Item(key, st, if notes.Some? then Note(notes.value) else prior.notes);
        var r := items[k := updated];
        assert FirstWithLabel(r, key) == k by {
          assert r[k].name == key;
          assert forall j :: 0 <= j < k ==> r[j] == items[j];
        }
        Ok(r)
  }

  /** remove_checklist_item: every item with the label goes; a label that is
      absent is refused. */
  function RemoveItem(items: seq<Item>, key: string): (r: Result<seq<Item>>)
    ensures r.Err? <==> !HasLabel(items, key)
    ensures r.Err? ==> r.error == FileNotFoundError(ItemNotFoundMessage)
    ensures r.Ok? ==> !HasLabel(r.value, key)
    ensures r.Ok? ==> forall it :: it in items && it.name != key ==> it in r.value
    ensures r.Ok? ==> forall it ::
      multiset(r.value)[it] == if it.name == key then 0 else multiset(items)[it]
    ensures r.Ok? ==> |r.value| < |items|
  {
    if !HasLabel(items, key) then Err(FileNotFoundError(ItemNotFoundMessage))
    else
      var k :| 0 <= k < |items| && items[k].name == key;
      WithoutShrinks(items, key, k);
      Ok(Without(items, key))
  }

  /** Removing an item that is present makes the list strictly shorter. */
  lemma {:induction false} WithoutShrinks(items: seq<Item>, key: string, k: int)
    requires 0 <= k < |items| && items[k].name == key
    ensures |Without(items, key)| < |items|
  {
    var rest := Without(items[1..], key);
    if k > 0 {
      assert items[1..][k - 1] == items[k];
      WithoutShrinks(items[1..], key, k - 1);
      assert |rest| < |items| - 1;
    } else {
      assert |rest| <= |items| - 1;
    }
  }

  /** Removing a label no item carries changes nothing. */
  lemma {:induction false} WithoutAbsent(items: seq<Item>, key: string)
    requires !HasLabel(items, key)
    ensures Without(items, key) == items
  {
    if items != [] {
      assert items[0].name != key;
      assert !HasLabel(items[1..], key) by {
        forall j | 0 <= j < |items[1..]|
          ensures items[1..][j].name != key
        {
          assert items[1..][j] == items[j + 1];
        }
      }
      WithoutAbsent(items[1..], key);
      assert items == [items[0]] + items[1..];
    }
  }

  /** Removing after appending an item drops the appended item and, when the
      label was absent before, nothing else. */
  lemma WithoutAppended(items: seq<Item>, it: Item)
    requires !HasLabel(items, it.name)
    ensures Without(items + [it], it.name) == items
  {
    WithoutConcat(items, [it], it.name);
    WithoutAbsent(items, it.name);
    assert Without([it], it.name) == [];
  }

  /** The sequence of the test: add a fresh label, set its status and notes,
      remove it again, and the checklist is as it was before. */
  lemma AddSetRemoveRestores(items: seq<Item>, key: string, status: string, notes: Option<string>)
    requires !HasLabel(items, key) && ParseStatus(status).Some?
    ensures AddItem(items, key).Ok?
    ensures SetStatus(AddItem(items, key).value, key, status, notes).Ok?
    ensures RemoveItem(SetStatus(AddItem(items, key).value, key, status, notes).value, key) == Ok(items)
  {
    var added := AddItem(items, key).value;
    assert added[|items|].name == key;
    var updated := SetStatus(added, key, status, notes).value;
    var k := |items|;
    assert updated == items + [updated[k]] by {
      assert updated[..k] == items;
    }
    WithoutAppended(items, updated[k]);
  }

  // ---------------------------------------------------------------------
  // On the filesystem
  // ---------------------------------------------------------------------

  /** CHECKLIST.json as typed items. A missing file fails as the tests
      require; a directory fails as `open` does; content outside the schema
      is a ValidationError. */
  function LoadChecklist(fs: FileSystem, taskId: string): (r: Result<seq<Item>>)
    ensures !Exists(fs, ChecklistPath(taskId)) ==> r == Err(FileNotFoundError(NoChecklistMessage))
    ensures r.Ok? ==> (ChecklistPath(taskId) in fs.files && ChecklistPath(taskId) !in fs.dirs
        && fs.files[ChecklistPath(taskId)] == JsonDoc(EncodeChecklist(r.value)))
  {
    var path := ChecklistPath(taskId);
    if !Exists(fs, path) then Err(FileNotFoundError(NoChecklistMessage))
    else
      match Read(fs, path)
      case Err(e) => Err(e)
      case Ok(c) =>
        if !c.JsonDoc? then Err(ValidationError)
        else
          match DecodeChecklist(c.doc)
          case None => Err(ValidationError)
          case Some(items) =>
            EncodeDecodeChecklist(c.doc);
            Ok(items)
  }

  /** Writes `items` as the whole of CHECKLIST.json. */
  function StoreChecklist(fs: FileSystem, taskId: string, items: seq<Item>): (r: Reply<seq<Item>>)
    ensures r.out.Ok? <==> ChecklistPath(taskId) !in fs.dirs && ParentExists(fs, ChecklistPath(taskId))
    ensures r.out.Err? ==> r.fs == fs
    ensures r.out.Ok? ==> r.out.value == items
    ensures r.out.Ok? ==> r.fs == fs.(files := fs.files[ChecklistPath(taskId) := JsonDoc(EncodeChecklist(items))])
    ensures r.out.Ok? ==> LoadChecklist(r.fs, taskId) == Ok(items)
  {
    match Write(fs, ChecklistPath(taskId), JsonDoc(EncodeChecklist(items)))
    case Err(e) => Reply(fs, Err(e))
    case Ok(fs') =>
      DecodeEncodeChecklist(items);
      Reply(fs', Ok(items))
  }

  /** add_checklist_item: AddItem applied to the stored checklist. */
  function AddChecklistItem(fs: FileSystem, taskId: string, key: string): (r: Reply<seq<Item>>)
    ensures !Exists(fs, ChecklistPath(taskId)) ==> r == Reply(fs, Err(FileNotFoundError(NoChecklistMessage)))
    ensures LoadChecklist(fs, taskId).Ok? && HasLabel(LoadChecklist(fs, taskId).value, key)
        ==> r == Reply(fs, Err(ValueError(DuplicateMessage)))
    ensures r.out.Err? ==> r.fs == fs
    ensures r.out.Ok? ==> LoadChecklist(fs, taskId).Ok? && r.out == AddItem(LoadChecklist(fs, taskId).value, key)
    ensures WellFormed(fs) && LoadChecklist(fs, taskId).Ok? && !HasLabel(LoadChecklist(fs, taskId).value, key)
        ==> r.out.Ok?
    ensures r.out.Ok? ==> r.fs == fs.(files := fs.files[ChecklistPath(taskId) := JsonDoc(EncodeChecklist(r.out.value))])
    ensures r.out.Ok? ==> HasLabel(r.out.value, key)
    ensures r.out.Ok? ==> r.out.value[FirstWithLabel(r.out.value, key)].status == Pending
    ensures r.out.Ok? ==> LoadChecklist(r.fs, taskId) == Ok(r.out.value)
  {
    match LoadChecklist(fs, taskId)
    case Err(e) => Reply(fs, Err(e))
    case Ok(items) =>
      match AddItem(items, key)
      case Err(e) => Reply(fs, Err(e))
      case Ok(next) =>
        StoreChecklist(fs, taskId, next)
  }

  /** set_checklist_item_status: the status is checked before the file is
      loaded; then SetStatus is applied to the stored checklist. */
  function SetChecklistItemStatus(fs: FileSystem, taskId: string, key: string, status: string, notes: Option<string>): (r: Reply<seq<Item>>)
    ensures ParseStatus(status).None? ==> r == Reply(fs, Err(ValueError(InvalidStatusMessage)))
    ensures ParseStatus(status).Some? && !Exists(fs, ChecklistPath(taskId))
        ==> r == Reply(fs, Err(FileNotFoundError(NoChecklistMessage)))
    ensures ParseStatus(status).Some? && LoadChecklist(fs, taskId).Ok? && !HasLabel(LoadChecklist(fs, taskId).value, key)
        ==> r == Reply(fs, Err(FileNotFoundError(ItemNotFoundMessage)))
    ensures r.out.Err? ==> r.fs == fs
    ensures r.out.Ok? ==>
      LoadChecklist(fs, taskId).Ok? && r.out == SetStatus(LoadChecklist(fs, taskId).value, key, status, notes)
    ensures WellFormed(fs) && ParseStatus(status).Some? && LoadChecklist(fs, taskId).Ok?
        && HasLabel(LoadChecklist(fs, taskId).value, key)
        ==> r.out.Ok?
    ensures r.out.Ok? ==> r.fs == fs.(files := fs.files[ChecklistPath(taskId) := JsonDoc(EncodeChecklist(r.out.value))])
    ensures r.out.Ok? ==> var k := FirstWithLabel(r.out.value, key);
      && k >= 0
      && StatusName(r.out.value[k].status) == status
      && (notes.Some? ==> r.out.value[k].notes == Note(notes.value))
    ensures r.out.Ok? ==> LoadChecklist(r.fs, taskId) == Ok(r.out.value)
  {
    if ParseStatus(status).None? then Reply(fs, Err(ValueError(InvalidStatusMessage)))
    else
      match LoadChecklist(fs, taskId)
      case Err(e) => Reply(fs, Err(e))
      case Ok(items) =>
        match SetStatus(items, key, status, notes)
        case Err(e) => Reply(fs, Err(e))
        case Ok(next) =>
          StoreChecklist(fs, taskId, next)
  }

  /** remove_checklist_item: RemoveItem applied to the stored checklist. */
  function RemoveChecklistItem(fs: FileSystem, taskId: string, key: string): (r: Reply<seq<Item>>)
    ensures !Exists(fs, ChecklistPath(taskId)) ==> r == Reply(fs, Err(FileNotFoundError(NoChecklistMessage)))
    ensures LoadChecklist(fs, taskId).Ok? && !HasLabel(LoadChecklist(fs, taskId).value, key)
        ==> r == Reply(fs, Err(FileNotFoundError(ItemNotFoundMessage)))
    ensures r.out.Err? ==> r.fs == fs
    ensures r.out.Ok? ==> !HasLabel(r.out.value, key)
    ensures r.out.Ok? ==> LoadChecklist(fs, taskId).Ok? && r.out == RemoveItem(LoadChecklist(fs, taskId).value, key)
    ensures WellFormed(fs) && LoadChecklist(fs, taskId).Ok? && HasLabel(LoadChecklist(fs, taskId).value, key)
        ==> r.out.Ok?
    ensures r.out.Ok? ==> r.fs == fs.(files := fs.files[ChecklistPath(taskId) := JsonDoc(EncodeChecklist(r.out.value))])
    ensures r.out.Ok? ==> LoadChecklist(r.fs, taskId) == Ok(r.out.value)
  {
    match LoadChecklist(fs, taskId)
    case Err(e) => Reply(fs, Err(e))
    case Ok(items) =>
      match RemoveItem(items, key)
      case Err(e) => Reply(fs, Err(e))
      case Ok(next) =>
        StoreChecklist(fs, taskId, next)
  }
}

=== FILE: json.dfy ===
/**
  JSON values as the server receives them in tool arguments and stores them
  in CHECKLIST.json. Objects are maps because a Python dict holds each key
  once; key order only matters for serialisation, which is not modelled.
 */
module JsonValues {

  datatype Json =
    | JNull
    | JBool(b: bool)
    | JNumber(n: int)
    | JString(s: string)
    | JArray(items: seq<Json>)
    | JObject(fields: map<string, Json>)
}

=== FILE: outcomes.dfy ===
/**
  Failure-carrying values shared by every part of the model.

  The server signals failure by raising Python exceptions; each exception
  class it can raise on the modelled paths is one constructor of `TaskError`,
  carrying the message text the code builds.
 */
module Outcomes {

  /** The exception classes raised on the modelled paths. */
  datatype TaskError =
    | ValueError(message: string)        // workflow order, unknown tool, bad URI, granular rules
    | ValidationError                    // the checklist does not match the checklist schema
    | FileNotFoundError(message: string) // a file that must exist is absent
    | KeyError(key: string)              // a required tool argument is missing
    | TypeError(argument: string)        // a tool argument has the wrong JSON type
    | OSError(reason: string)            // any other failure of the filesystem itself

  datatype Option<+T> = None | Some(value: T)

  datatype Result<+T> = Ok(value: T) | Err(error: TaskError)
}

=== FILE: paths.dfy ===
/**
  Path arithmetic of the server: the fixed names, POSIX `os.path.join` and
  `os.path.dirname` on plain strings, and `task_path`.

  Paths are never normalised: ".tasks/a//b" and ".tasks/a/b" are different
  strings, as they are different arguments to the functions modelled here.
 */
module Paths {

  const Sep: char := '/'

  /** BASE_DIR: the folder that holds one sub-folder per task. */
  const BaseDir: string := ".tasks"

  /** The three artifact file names, in the order the lister visits them. */
  const InvestigationFile: string := "INVESTIGATION.md"
  const SolutionPlanFile: string := "SOLUTION_PLAN.md"
  const ChecklistFile: string := "CHECKLIST.json"
  const ArtifactFiles: seq<string> := [InvestigationFile, SolutionPlanFile, ChecklistFile]

  predicate IsAbsolute(p: string) {
    |p| > 0 && p[0] == Sep
  }

  predicate EndsWithSep(p: string) {
    |p| > 0 && p[|p| - 1] == Sep
  }

  predicate HasNoSep(s: string) {
    forall i :: 0 <= i < |s| ==> s[i] != Sep
  }

  predicate AllSeps(s: string) {
    forall i :: 0 <= i < |s| ==> s[i] == Sep
  }

  /** A name that can stand for one directory entry: not empty, no separator. */
  predicate IsEntryName(s: string) {
    s != "" && HasNoSep(s)
  }

  /** POSIX `os.path.join(a, b)`: an absolute `b` discards `a`; otherwise a
      separator is inserted unless `a` is empty or already ends with one. */
  function Join(a: string, b: string): (r: string)
    ensures IsAbsolute(b) ==> r == b
    ensures !IsAbsolute(b) ==> |r| >= |b| && r[..|r| - |b|] == JoinPrefix(a) && r[|r| - |b|..] == b
  {
    if IsAbsolute(b) then b
    else if a == "" || EndsWithSep(a) then a + b
    else a + [Sep] + b
  }

  /** What `Join(a, b)` puts in front of a relative `b`. */
  function JoinPrefix(a: string): (r: string)
    ensures r == "" || EndsWithSep(r)
    ensures |r| >= |a| && r[..|a|] == a
  {
    if a == "" || EndsWithSep(a) then a else a + [Sep]
  }

  /** `task_path(task_id, filename)`: BASE_DIR joined with the task id and
      then with the file name (server.py:50-60). */
  function TaskPath(taskId: string, fileName: string): string {
    Join(Join(BaseDir, taskId), fileName)
  }

  /** Everything a task's relative file name is appended to. */
  function TaskPrefix(taskId: string): (r: string)
    ensures EndsWithSep(r)
  {
    JoinPrefix(Join(BaseDir, taskId))
  }

  /** `str.rfind('/')`: index of the last separator, or -1. */
  function LastSep(p: string): (i: int)
    ensures -1 <= i < |p|
    ensures i >= 0 ==> p[i] == Sep
    ensures forall j :: i < j < |p| ==> p[j] != Sep
  {
    if |p| == 0 then -1
    else if p[|p| - 1] == Sep then |p| - 1
    else LastSep(p[..|p| - 1])
  }

  /** `str.rstrip('/')`. */
  function StripTrailingSeps(s: string): (r: string)
    ensures |r| <= |s| && s[..|r|] == r
    ensures !EndsWithSep(r)
    ensures AllSeps(s[|r|..])
  {
    if EndsWithSep(s) then StripTrailingSeps(s[..|s| - 1]) else s
  }

  /** POSIX `os.path.dirname`: everything up to the last separator, with
      trailing separators removed unless that leaves nothing but separators. */
  function DirName(p: string): string {
    var head := p[..LastSep(p) + 1];
    if head != "" && !AllSeps(head) then StripTrailingSeps(head) else head
  }

  // ---------------------------------------------------------------------
  // Properties of task_path
  // ---------------------------------------------------------------------

  /** Every task file is its task's prefix followed by the relative file name. */
  lemma TaskPathShape(taskId: string, fileName: string)
    requires !IsAbsolute(fileName)
    ensures TaskPath(taskId, fileName) == TaskPrefix(taskId) + fileName
  {
    var r := TaskPath(taskId, fileName);
    assert r[..|r| - |fileName|] == TaskPrefix(taskId);
    assert r == r[..|r| - |fileName|] + r[|r| - |fileName|..];
  }

  /** The usual case: a relative task id, even one holding separators, is kept
      verbatim as nested directories under BASE_DIR. */
  lemma TaskPathNested(taskId: string, fileName: string)
    requires taskId != "" && !IsAbsolute(taskId) && !EndsWithSep(taskId)
    requires !IsAbsolute(fileName)
    ensures TaskPath(taskId, fileName) == BaseDir + [Sep] + taskId + [Sep] + fileName
  {
    assert Join(BaseDir, taskId) == BaseDir + [Sep] + taskId;
    var x := BaseDir + [Sep] + taskId;
    assert x[|x| - 1] == taskId[|taskId| - 1];
  }

  /** An absolute task id replaces BASE_DIR altogether: the join does not
      confine task files to the task folder. */
  lemma TaskPathAbsolute(taskId: string, fileName: string)
    requires IsAbsolute(taskId) && !EndsWithSep(taskId)
    requires !IsAbsolute(fileName)
    ensures TaskPath(taskId, fileName) == taskId + [Sep] + fileName
  {
  }

  /** Two task files with separator-free names are the same path only if the
      names agree and the two task ids lead to the same folder. */
  lemma TaskPathInjective(t1: string, f1: string, t2: string, f2: string)
    requires IsEntryName(f1) && IsEntryName(f2)
    requires TaskPath(t1, f1) == TaskPath(t2, f2)
    ensures f1 == f2 && TaskPrefix(t1) == TaskPrefix(t2)
  {
    TaskPathShape(t1, f1);
    TaskPathShape(t2, f2);
    var p1, p2 := TaskPrefix(t1), TaskPrefix(t2);
    var r := p1 + f1;
    SuffixAfterLastSep(p1, f1);
    SuffixAfterLastSep(p2, f2);
    assert |p1| == |p2|;
    assert p1 == r[..|p1|] == p2;
  }

  /** Task files with different separator-free names never coincide. */
  lemma TaskPathsDistinct(t1: string, f1: string, t2: string, f2: string)
    requires IsEntryName(f1) && IsEntryName(f2) && f1 != f2
    ensures TaskPath(t1, f1) != TaskPath(t2, f2)
  {
    if TaskPath(t1, f1) == TaskPath(t2, f2) {
      TaskPathInjective(t1, f1, t2, f2);
    }
  }

  /** The artifact names are plain, distinct directory entry names. */
  lemma ArtifactNames()
    ensures IsEntryName(InvestigationFile) && IsEntryName(SolutionPlanFile) && IsEntryName(ChecklistFile)
    ensures InvestigationFile != SolutionPlanFile && SolutionPlanFile != ChecklistFile && ChecklistFile != InvestigationFile
  {
  }

  /** In `prefix + name` with a separator-terminated prefix and a
      separator-free name, the last separator is the prefix's last character. */
  lemma SuffixAfterLastSep(prefix: string, name: string)
    requires EndsWithSep(prefix) && HasNoSep(name)
    ensures LastSep(prefix + name) == |prefix| - 1
  {
    var p := prefix + name;
    var i := LastSep(p);
    assert p[|prefix| - 1] == Sep;
  }

  /** The folder of a task file does not depend on which file it is. */
  lemma TaskDirIndependentOfFile(taskId: string, f1: string, f2: string)
    requires IsEntryName(f1) && IsEntryName(f2)
    ensures DirName(TaskPath(taskId, f1)) == DirName(TaskPath(taskId, f2))
    ensures DirName(TaskPath(taskId, f1)) != ""
  {
    var q := TaskPrefix(taskId);
    TaskPathShape(taskId, f1);
    TaskPathShape(taskId, f2);
    SuffixAfterLastSep(q, f1);
    SuffixAfterLastSep(q, f2);
    assert (q + f1)[..|q|] == q;
    assert (q + f2)[..|q|] == q;
  }

  /** A task file is strictly longer than its folder, so it is never one of
      the folders `makedirs` creates for it. */
  lemma TaskDirShorter(taskId: string, fileName: string)
    requires IsEntryName(fileName)
    ensures |DirName(TaskPath(taskId, fileName))| < |TaskPath(taskId, fileName)|
  {
    var q := TaskPrefix(taskId);
    TaskPathShape(taskId, fileName);
    SuffixAfterLastSep(q, fileName);
  }

  /** For an ordinary task id the folder of its files is BASE_DIR/task_id. */
  lemma TaskDirNested(taskId: string, fileName: string)
    requires taskId != "" && !IsAbsolute(taskId) && !EndsWithSep(taskId)
    requires IsEntryName(fileName)
    ensures DirName(TaskPath(taskId, fileName)) == BaseDir + [Sep] + taskId
  {
    var x := BaseDir + [Sep] + taskId;
    var q := x + [Sep];
    TaskPathNested(taskId, fileName);
    assert TaskPath(taskId, fileName) == q + fileName;
    SuffixAfterLastSep(q, fileName);
    assert (q + fileName)[..|q|] == q;
    assert q[0] == '.';
    assert !AllSeps(q);
    assert x[|x| - 1] == taskId[|taskId| - 1];
    assert q[..|q| - 1] == x;
  }
}

=== FILE: resources.dfy ===
/**
  The resource side of the server: list_task_resources_sync, which offers
  every existing task file as a `task://` resource, and read_task_resource,
  which maps such a URI back to a file and reads it.

  `os.listdir(BASE_DIR)` is a parameter, `entries`: its order is whatever the
  operating system returns, and the lister filters it through the filesystem.
 */
module Resources {
  import opened Outcomes
  import opened Paths
  import opened FileSystem

  const UriScheme: string := "task://"

  datatype Resource = Resource(uri: string, name: string, mimeType: string, description: string)

  predicate StartsWith(s: string, prefix: string) {
    |prefix| <= |s| && s[..|prefix|] == prefix
  }

  predicate EndsWith(s: string, suffix: string) {
    |suffix| <= |s| && s[|s| - |suffix|..] == suffix
  }

  /** No element occurs twice. */
  predicate NoRepeats<T(==)>(s: seq<T>) {
    forall i, j :: 0 <= i < j < |s| ==> s[i] != s[j]
  }

  /** Two lists without repeats and without a common element join into one. */
  lemma NoRepeatsJoin<T>(a: seq<T>, b: seq<T>)
    requires NoRepeats(a) && NoRepeats(b)
    requires forall x :: x in a ==> x !in b
    ensures NoRepeats(a + b)
  {
    forall i, j | 0 <= i < j < |a + b|
      ensures (a + b)[i] != (a + b)[j]
    {
      if j >= |a| && i < |a| {
        assert (a + b)[i] in a && (a + b)[j] in b;
      } else if i >= |a| {
        assert (a + b)[i] == b[i - |a|] && (a + b)[j] == b[j - |a|];
      }
    }
  }

  /** The MIME type chosen from the file extension. */
  function MimeType(fileName: string): (m: string)
    ensures EndsWith(fileName, ".md") <==> m == "text/markdown"
    ensures !EndsWith(fileName, ".md") && EndsWith(fileName, ".json") <==> m == "application/json"
    ensures !EndsWith(fileName, ".md") && !EndsWith(fileName, ".json") <==> m == "text/plain"
  {
    if EndsWith(fileName, ".md") then "text/markdown"
    else if EndsWith(fileName, ".json") then "application/json"
    else "text/plain"
  }

  /** The two markdown artifacts are served as markdown, the checklist as JSON:
      the plain-text fallback is never used for a task file. */
  lemma ArtifactMimeTypes()
    ensures MimeType(InvestigationFile) == "text/markdown"
    ensures MimeType(SolutionPlanFile) == "text/markdown"
    ensures MimeType(ChecklistFile) == "application/json"
  {
    assert EndsWith(InvestigationFile, ".md");
    assert EndsWith(SolutionPlanFile, ".md");
    assert !EndsWith(ChecklistFile, ".md") && EndsWith(ChecklistFile, ".json");
  }

  /** The resource offered for file `fileName` of listed entry `taskId`. */
  function ResourceFor(taskId: string, fileName: string): (r: Resource)
    ensures StartsWith(r.uri, UriScheme) && r.uri[|UriScheme|..] == taskId + [Sep] + fileName
    ensures r.name == fileName && r.mimeType == MimeType(fileName)
  {
    Resource(UriScheme + taskId + [Sep] + fileName, fileName, MimeType(fileName),
             "Task " + taskId + " - " + fileName)
  }

  /** A resource names its entry and its file: for separator-free names
      the URI determines both. */
  lemma ResourceForInjective(e1: string, f1: string, e2: string, f2: string)
    requires IsEntryName(e1) && IsEntryName(e2)
    requires ResourceFor(e1, f1) == ResourceFor(e2, f2)
    ensures e1 == e2 && f1 == f2
  {
    var u1 := e1 + [Sep] + f1;
    var u2 := e2 + [Sep] + f2;
    assert u1 == u2 && f1 == f2;
    assert |e1| == |e2|;
    assert e1 == u1[..|e1|] && e2 == u2[..|e2|];
  }

  /** A file the lister offers: the entry is a folder under BASE_DIR and the
      artifact exists in it (as a file or as a directory). */
  predicate Listed(fs: FileSystem, taskId: string, fileName: string) {
    && Join(BaseDir, taskId) in fs.dirs
    && fileName in ArtifactFiles
    && Exists(fs, TaskPath(taskId, fileName))
  }

  /** The one-element list offering `fileName` of `taskId`, if it exists. */
  function Offered(fs: FileSystem, taskId: string, fileName: string): (rs: seq<Resource>)
    ensures Exists(fs, TaskPath(taskId, fileName)) ==> ResourceFor(taskId, fileName) in rs
    ensures forall r :: r in rs ==> Exists(fs, TaskPath(taskId, fileName)) && r == ResourceFor(taskId, fileName)
    ensures |rs| <= 1
  {
    if Exists(fs, TaskPath(taskId, fileName)) then [ResourceFor(taskId, fileName)] else []
  }

  /** The resources of one directory entry, in the fixed artifact order. */
  function EntryResources(fs: FileSystem, taskId: string): (rs: seq<Resource>)
    ensures forall f :: Listed(fs, taskId, f) ==> ResourceFor(taskId, f) in rs
    ensures forall r :: r in rs ==> Listed(fs, taskId, r.name) && r == ResourceFor(taskId, r.name)
  {
    if Join(BaseDir, taskId) !in fs.dirs then []
    else
      var rs := Offered(fs, taskId, InvestigationFile)
        + Offered(fs, taskId, SolutionPlanFile)
        + Offered(fs, taskId, ChecklistFile);
      assert forall f :: f in ArtifactFiles <==> f == InvestigationFile || f == SolutionPlanFile || f == ChecklistFile;
      rs
  }

  /** The three artifacts of one entry are offered at most once each. */
  lemma EntryResourcesNoRepeats(fs: FileSystem, taskId: string)
    ensures NoRepeats(EntryResources(fs, taskId))
  {
    if Join(BaseDir, taskId) in fs.dirs {
      var a := Offered(fs, taskId, InvestigationFile);
      var b := Offered(fs, taskId, SolutionPlanFile);
      var c := Offered(fs, taskId, ChecklistFile);
      ArtifactNames();
      NoRepeatsJoin(a, b);
      NoRepeatsJoin(a + b, c);
    }
  }

  /** The loop over the directory entries. */
  function ListEntries(fs: FileSystem, entries: seq<string>): (rs: seq<Resource>)
    ensures forall e, f :: e in entries && Listed(fs, e, f) ==> ResourceFor(e, f) in rs
    ensures forall r :: r in rs ==>
      exists e :: e in entries && Listed(fs, e, r.name) && r == ResourceFor(e, r.name)
    ensures |rs| <= 3 * |entries|
  {
    if entries == [] then []
    else EntryResources(fs, entries[0]) + ListEntries(fs, entries[1..])
  }

  /** Distinct entry names give a listing in which no resource occurs twice. */
  lemma {:induction false} ListEntriesNoRepeats(fs: FileSystem, entries: seq<string>)
    requires NoRepeats(entries) && forall e :: e in entries ==> IsEntryName(e)
    ensures NoRepeats(ListEntries(fs, entries))
  {
    if entries != [] {
      var first := EntryResources(fs, entries[0]);
      var rest := ListEntries(fs, entries[1..]);
      assert NoRepeats(entries[1..]);
      ListEntriesNoRepeats(fs, entries[1..]);
      EntryResourcesNoRepeats(fs, entries[0]);
      assert entries[0] !in entries[1..] by {
        forall k | 0 <= k < |entries[1..]|
          ensures entries[1..][k] != entries[0]
        {
          assert entries[1..][k] == entries[k + 1];
        }
      }
      forall r | r in first
        ensures r !in rest
      {
        if r in rest {
          var e :| e in entries[1..] && Listed(fs, e, r.name) && r == ResourceFor(e, r.name);
          ResourceForInjective(entries[0], r.name, e, r.name);
        }
      }
      NoRepeatsJoin(first, rest);
    }
  }

  /** What `os.listdir(BASE_DIR)` returns, in some order: the name of every
      entry directly inside BASE_DIR, and nothing else. */
  ghost predicate DirectoryListing(fs: FileSystem, entries: seq<string>) {
    && (forall e :: e in entries <==> IsEntryName(e) && Exists(fs, Join(BaseDir, e)))
    && NoRepeats(entries)
  }

  /** list_task_resources_sync: nothing when BASE_DIR is absent, the failure of
      `os.listdir` when BASE_DIR is a regular file, otherwise every existing
      artifact of every task folder directly under BASE_DIR. */
  function ListTaskResources(fs: FileSystem, entries: seq<string>): (r: Result<seq<Resource>>)
    requires BaseDir in fs.dirs ==> DirectoryListing(fs, entries)
    ensures !Exists(fs, BaseDir) ==> r == Ok([])
    ensures r.Err? <==> BaseDir in fs.files && BaseDir !in fs.dirs
    ensures BaseDir in fs.dirs ==> r.Ok?
    ensures r.Ok? && BaseDir in fs.dirs ==>
      forall e, f :: IsEntryName(e) && Listed(fs, e, f) ==> ResourceFor(e, f) in r.value
    ensures r.Ok? ==> forall res :: res in r.value ==>
      exists e :: IsEntryName(e) && Listed(fs, e, res.name) && res == ResourceFor(e, res.name)
    ensures r.Ok? ==> NoRepeats(r.value)
  {
    if !Exists(fs, BaseDir) then Ok([])
    else if BaseDir !in fs.dirs then Err(OSError("Not a directory"))
    else
      var rs := ListEntries(fs, entries);
      assert forall e, f :: IsEntryName(e) && Listed(fs, e, f) ==> e in entries;
      ListEntriesNoRepeats(fs, entries);
      Ok(rs)
  }

  // ---------------------------------------------------------------------
  // Reading a resource back
  // ---------------------------------------------------------------------

  /** Index of the first `c` in `s`, or -1. */
  function FirstIndex(s: string, c: char): (i: int)
    ensures -1 <= i < |s|
    ensures i >= 0 ==> s[i] == c
    ensures forall j :: 0 <= j < |s| && (i < 0 || j < i) ==> s[j] != c
  {
    if |s| == 0 then -1
    else if s[0] == c then 0
    else var k := FirstIndex(s[1..], c); if k < 0 then -1 else k + 1
  }

  /** Python `s.split(c, 1)`: the text before the first `c` and the rest, or
      the whole text alone when there is no `c`. */
  function SplitOnce(s: string, c: char): (parts: seq<string>)
    ensures |parts| == 1 || |parts| == 2
    ensures |parts| == 1 <==> c !in s
    ensures |parts| == 1 ==> parts[0] == s
    ensures |parts| == 2 ==> s == parts[0] + [c] + parts[1] && c !in parts[0]
  {
    var i := FirstIndex(s, c);
    if i < 0 then [s]
    else
      assert s == s[..i] + [c] + s[i + 1..];
      [s[..i], s[i + 1..]]
  }

  /** Lines 134-145 of read_task_resource: the path a URI is read from. The
      slice at index 6 keeps the second '/' of "task://", so the split always
      yields two parts, the task id part is empty, and the rest of the URI is
      joined to BASE_DIR, or replaces it when the rest is itself absolute. */
  function ResolveUri(uri: string): (r: Result<string>)
    ensures r.Err? <==> !StartsWith(uri, UriScheme)
    ensures r.Err? ==> r.error == ValueError("Invalid resource URI: " + uri)
    ensures r.Ok? && !IsAbsolute(uri[|UriScheme|..]) ==> r.value == BaseDir + [Sep] + uri[|UriScheme|..]
    ensures r.Ok? && IsAbsolute(uri[|UriScheme|..]) ==> r.value == uri[|UriScheme|..]
  {
    if !StartsWith(uri, UriScheme) then Err(ValueError("Invalid resource URI: " + uri))
    else
      var pathPart := uri[6..];
      var parts := SplitOnce(pathPart, Sep);
      if |parts| != 2 then Err(ValueError("Invalid resource URI format: " + uri))
      else
        assert parts[0] == "" && parts[1] == uri[|UriScheme|..] by {
          assert pathPart[0] == Sep;
          assert pathPart == parts[0] + [Sep] + parts[1];
        }
        Ok(TaskPath(parts[0], parts[1]))
  }

  /** read_task_resource. */
  function ReadTaskResource(fs: FileSystem, uri: string): (r: Result<Content>)
    ensures ResolveUri(uri).Err? ==> r == Err(ResolveUri(uri).error)
    ensures ResolveUri(uri).Ok? && !Exists(fs, ResolveUri(uri).value)
        ==> r == Err(FileNotFoundError("Resource not found: " + uri))
    ensures r.Ok? <==>
      ResolveUri(uri).Ok? && ResolveUri(uri).value in fs.files && ResolveUri(uri).value !in fs.dirs
    ensures r.Ok? ==> r.value == fs.files[ResolveUri(uri).value]
  {
    match ResolveUri(uri)
    case Err(e) => Err(e)
    case Ok(path) =>
      if !Exists(fs, path) then Err(FileNotFoundError("Resource not found: " + uri))
      else Read(fs, path)
  }

  /** A `task://` URI with a relative rest resolves under BASE_DIR. */
  lemma RelativeUriResolves(rest: string)
    requires !IsAbsolute(rest)
    ensures ResolveUri(UriScheme + rest) == Ok(BaseDir + [Sep] + rest)
  {
    var uri := UriScheme + rest;
    assert uri[..|UriScheme|] == UriScheme;
    assert uri[|UriScheme|..] == rest;
  }

  /** The URI the lister builds is the scheme followed by `taskId/fileName`. */
  lemma ResourceUri(taskId: string, fileName: string)
    ensures ResourceFor(taskId, fileName).uri == UriScheme + (taskId + [Sep] + fileName)
  {
  }

  /** A plain entry name followed by a separator is relative and keeps the
      entry name as a single nested folder. */
  lemma EntryNameNested(taskId: string, fileName: string)
    requires IsEntryName(taskId) && !IsAbsolute(fileName)
    ensures !IsAbsolute(taskId + [Sep] + fileName)
    ensures TaskPath(taskId, fileName) == BaseDir + [Sep] + (taskId + [Sep] + fileName)
  {
    assert (taskId + [Sep] + fileName)[0] == taskId[0];
    assert taskId[|taskId| - 1] != Sep;
    TaskPathNested(taskId, fileName);
  }

  /** The URI the lister builds for entry `taskId` resolves to exactly
      `task_path(taskId, fileName)`. */
  lemma ListerUriResolves(taskId: string, fileName: string)
    requires IsEntryName(taskId) && !IsAbsolute(fileName)
    ensures ResolveUri(ResourceFor(taskId, fileName).uri) == Ok(TaskPath(taskId, fileName))
  {
    ResourceUri(taskId, fileName);
    EntryNameNested(taskId, fileName);
    RelativeUriResolves(taskId + [Sep] + fileName);
  }

  /** Every listed resource can be read back through its URI, and reading it
      yields the content of the very file the lister saw; only an artifact
      that is a directory is listed yet unreadable. */
  lemma ListedResourceReadable(fs: FileSystem, entries: seq<string>, taskId: string, fileName: string)
    requires WellFormed(fs) && BaseDir in fs.dirs && DirectoryListing(fs, entries)
    requires IsEntryName(taskId) && Listed(fs, taskId, fileName)
    ensures ListTaskResources(fs, entries).Ok?
    ensures ResourceFor(taskId, fileName) in ListTaskResources(fs, entries).value
    ensures var r := ReadTaskResource(fs, ResourceFor(taskId, fileName).uri);
            && (r.Ok? <==> TaskPath(taskId, fileName) in fs.files)
            && (r.Ok? ==> r.value == fs.files[TaskPath(taskId, fileName)])
  {
    ArtifactNames();
    ListerUriResolves(taskId, fileName);
  }

  /** A URI whose path part is absolute escapes BASE_DIR: the join keeps no
      trace of the task folder, so any absolute path can be read. */
  lemma AbsoluteUriEscapesBase(fs: FileSystem, path: string)
    requires IsAbsolute(path)
    ensures ResolveUri(UriScheme + path) == Ok(path)
  {
    var uri := UriScheme + path;
    assert uri[..|UriScheme|] == UriScheme;
    assert uri[|UriScheme|..] == path;
  }
}

=== FILE: schema.dfy ===
/**
  CHECKLIST_SCHEMA (server.py:33-45) as a structural predicate over JSON
  values, and a typed view of checklist items that the predicate is proved
  to describe exactly.
 */
module Schema {
  import opened JsonValues
  import opened Outcomes

  /** The `enum` of the `status` property. */
  const StatusValues: set<Json> := {JString("pending"), JString("in-progress"), JString("done")}

  /** The declared properties; `additionalProperties: False` admits no others. */
  const ItemKeys: set<string> := {"label", "status", "notes"}

  /** The `items` schema: an object with a string `label`, a `status` from the
      enum, an optional `notes` that is a string or null, and no other key. */
  predicate IsChecklistItem(v: Json) {
    && v.JObject?
    && v.fields.Keys <= ItemKeys
    && "label" in v.fields && v.fields["label"].JString?
    && "status" in v.fields && v.fields["status"] in StatusValues
    && ("notes" in v.fields ==> v.fields["notes"].JString? || v.fields["notes"].JNull?)
  }

  /** The whole schema: an array of items. Labels need not be distinct. */
  predicate IsChecklist(v: Json) {
    v.JArray? && forall i :: 0 <= i < |v.items| ==> IsChecklistItem(v.items[i])
  }

  // ---------------------------------------------------------------------
  // Typed view of an item
  // ---------------------------------------------------------------------

  datatype Status = Pending | InProgress | Done

  /** `notes` may be left out, be null, or hold a string. */
  datatype Notes = NoNotes | NullNotes | Note(text: string)

  /** `name` holds the item's `label` (a reserved word in Dafny). */
  datatype Item = Item(name: string, status: Status, notes: Notes)

  function StatusName(s: Status): (r: string)
    ensures JString(r) in StatusValues
  {
    match s
    case Pending => "pending"
    case InProgress => "in-progress"
    case Done => "done"
  }

  function ParseStatus(name: string): (r: Option<Status>)
    ensures r.Some? <==> JString(name) in StatusValues
    ensures r.Some? ==> StatusName(r.value) == name
  {
    if name == "pending" then Some(Pending)
    else if name == "in-progress" then Some(InProgress)
    else if name == "done" then Some(Done)
    else None
  }

  lemma ParseStatusName(s: Status)
    ensures ParseStatus(StatusName(s)) == Some(s)
  {
  }

  function EncodeItem(it: Item): (v: Json)
    ensures IsChecklistItem(v)
    ensures v.fields["label"] == JString(it.name)
  {
    var required := map["label" := JString(it.name), "status" := JString(StatusName(it.status))];
    match it.notes
    case NoNotes => JObject(required)
    case NullNotes => JObject(required["notes" := JNull])
    case Note(t) => JObject(required["notes" := JString(t)])
  }

  function DecodeItem(v: Json): (r: Option<Item>)
    ensures r.Some? <==> IsChecklistItem(v)
    ensures r.Some? ==> JString(r.value.name) == v.fields["label"]
  {
    if !IsChecklistItem(v) then None
    else
      var f := v.fields;
      var notes :=
        if "notes" !in f then NoNotes
        else if f["notes"].JNull? then NullNotes
        else Note(f["notes"].s);
      Some(Item(f["label"].s, ParseStatus(f["status"].s).value, notes))
  }

  /** Typed items survive encoding. */
  lemma DecodeEncodeItem(it: Item)
    ensures DecodeItem(EncodeItem(it)) == Some(it)
  {
    ParseStatusName(it.status);
  }

  /** A schema-conforming object is exactly the encoding of its typed view. */
  lemma EncodeDecodeItem(v: Json)
    requires IsChecklistItem(v)
    ensures EncodeItem(DecodeItem(v).value) == v
  {
    var w := EncodeItem(DecodeItem(v).value);
    assert w.fields.Keys == v.fields.Keys;
    forall k | k in v.fields
      ensures w.fields[k] == v.fields[k]
    {
    }
  }

  // ---------------------------------------------------------------------
  // Typed view of a checklist
  // ---------------------------------------------------------------------

  function EncodeChecklist(items: seq<Item>): (v: Json)
    ensures IsChecklist(v)
    ensures |v.items| == |items|
    ensures forall i :: 0 <= i < |items| ==> v.items[i] == EncodeItem(items[i])
  {
    JArray(seq(|items|, i requires 0 <= i < |items| => EncodeItem(items[i])))
  }

  /** Decodes the elements front to back, failing on the first that is not an item. */
  function DecodeItems(vs: seq<Json>): (r: Option<seq<Item>>)
    ensures r.Some? <==> forall i :: 0 <= i < |vs| ==> IsChecklistItem(vs[i])
    ensures r.Some? ==> |r.value| == |vs|
    ensures r.Some? ==> forall i :: 0 <= i < |vs| ==> DecodeItem(vs[i]) == Some(r.value[i])
  {
    if vs == [] then Some([])
    else
      match DecodeItem(vs[0])
      case None => None
      case Some(first) =>
        match DecodeItems(vs[1..])
        case None =>
          assert forall i :: 1 <= i < |vs| ==> vs[i] == vs[1..][i - 1];
          None
        case Some(rest) => Some([first] + rest)
  }

  function DecodeChecklist(v: Json): (r: Option<seq<Item>>)
    ensures r.Some? <==> IsChecklist(v)
    ensures r.Some? ==> |r.value| == |v.items|
    ensures r.Some? ==> forall i :: 0 <= i < |v.items| ==> DecodeItem(v.items[i]) == Some(r.value[i])
  {
    if v.JArray? then DecodeItems(v.items) else None
  }

  /** Decoding inverts encoding, so the typed view loses nothing. */
  lemma DecodeEncodeChecklist(items: seq<Item>)
    ensures DecodeChecklist(EncodeChecklist(items)) == Some(items)
  {
    var v := EncodeChecklist(items);
    var r := DecodeChecklist(v).value;
    forall i | 0 <= i < |items|
      ensures r[i] == items[i]
    {
      DecodeEncodeItem(items[i]);
      assert Some(r[i]) == DecodeItem(v.items[i]);
    }
    assert r == items;
  }

  /** Every schema-conforming value is the encoding of its typed view. */
  lemma EncodeDecodeChecklist(v: Json)
    requires IsChecklist(v)
    ensures EncodeChecklist(DecodeChecklist(v).value) == v
  {
    var items := DecodeChecklist(v).value;
    var w := EncodeChecklist(items);
    forall i | 0 <= i < |v.items|
      ensures w.items[i] == v.items[i]
    {
      EncodeDecodeItem(v.items[i]);
    }
  }
}

=== FILE: workflow.dfy ===
/**
  The workflow-ordered writers of server.py: create_investigation,
  create_solution_plan, create_checklist and update_checklist.

  Every precondition is an existence test on the filesystem evaluated at call
  time, never a cached flag. The writers whose name ends in `Strict` test for
  a regular file instead of mere existence; they are the corrected variants
  under which the workflow order is an invariant (see `RunStrictKeepsOrder`),
  while `ExistsGuardAdmitsDirectory` shows the order broken as written.
 */
module Workflow {
  import opened Outcomes
  import opened JsonValues
  import opened Paths
  import opened Schema
  import opened FileSystem

  const DefaultInvestigation: string := "# Investigation\n\n"
  const DefaultSolutionPlan: string := "# Solution Plan\n\n"
  const NoInvestigationMessage: string := "Cannot create SOLUTION_PLAN.md without INVESTIGATION.md"
  const NoPlanMessage: string := "Cannot create CHECKLIST.json without SOLUTION_PLAN.md"
  const NoChecklistMessage: string := "CHECKLIST.json not found"

  function InvestigationPath(taskId: string): string {
    TaskPath(taskId, InvestigationFile)
  }

  function PlanPath(taskId: string): string {
    TaskPath(taskId, SolutionPlanFile)
  }

  function ChecklistPath(taskId: string): string {
    TaskPath(taskId, ChecklistFile)
  }

  /** The task folder: the directory of any of the task's files. */
  function TaskDir(taskId: string): string {
    DirName(InvestigationPath(taskId))
  }

  /** `os.makedirs` of the task folder succeeds: no regular file stands on
      the way to it (a root folder always exists). */
  predicate TaskDirCreatable(fs: FileSystem, taskId: string) {
    AllSeps(TaskDir(taskId)) || Ancestors(TaskDir(taskId)) !! fs.files.Keys
  }

  /** create_checklist turns a `None` checklist into an empty array. */
  function NoneAsEmpty(checklist: Json): (v: Json)
    ensures checklist.JNull? ==> v == JArray([])
    ensures !checklist.JNull? ==> v == checklist
  {
    if checklist.JNull? then JArray([]) else checklist
  }

  // ---------------------------------------------------------------------
  // The writers as written
  // ---------------------------------------------------------------------

  /** create_investigation: no precondition; makes the task folder, then
      replaces INVESTIGATION.md. Only the filesystem itself can make it fail. */
  function CreateInvestigation(fs: FileSystem, taskId: string, content: string): (r: Reply<string>)
    ensures r.out.Ok? <==> InvestigationPath(taskId) !in fs.dirs && TaskDirCreatable(fs, taskId)
    ensures r.out.Ok? ==> r.out.value == "Created " + InvestigationPath(taskId)
    ensures r.out.Ok? ==> r.fs.files == fs.files[InvestigationPath(taskId) := Text(content)]
    ensures r.out.Ok? ==> AllSeps(TaskDir(taskId)) || TaskDir(taskId) in r.fs.dirs
    ensures r.out.Ok? && !AllSeps(TaskDir(taskId)) ==> r.fs.dirs == fs.dirs + Ancestors(TaskDir(taskId))
    ensures r.out.Err? ==> IsOsError(r.out.error) && r.fs.files == fs.files
    ensures fs.dirs <= r.fs.dirs
    ensures WellFormed(fs) ==> WellFormed(r.fs)
  {
    var path := InvestigationPath(taskId);
    var dir := DirName(path);
    ArtifactNames();
    TaskDirIndependentOfFile(taskId, InvestigationFile, InvestigationFile);
    TaskDirShorter(taskId, InvestigationFile);
    match MakeDirs(fs, dir)
    case Err(e) => Reply(fs, Err(e))
    case Ok(fs1) =>
      MakeDirsKeepsWellFormedIf(fs, dir);
      assert ParentExists(fs1, path);
      WriteFile(fs1, path, Text(content), "Created ")
  }

  /** create_solution_plan: refused while INVESTIGATION.md does not exist;
      otherwise replaces SOLUTION_PLAN.md, whatever it held before. */
  function CreateSolutionPlan(fs: FileSystem, taskId: string, content: string): (r: Reply<string>)
    ensures r.out == Err(ValueError(NoInvestigationMessage)) <==> !Exists(fs, InvestigationPath(taskId))
    ensures r.out.Err? ==> r.fs == fs
    ensures r.out.Err? && Exists(fs, InvestigationPath(taskId)) ==> IsOsError(r.out.error)
    ensures r.out.Ok? ==> r.out.value == "Created " + PlanPath(taskId)
    ensures r.out.Ok? ==> r.fs == fs.(files := fs.files[PlanPath(taskId) := Text(content)])
    ensures WellFormed(fs) ==> WellFormed(r.fs)
  {
    if !Exists(fs, InvestigationPath(taskId)) then Reply(fs, Err(ValueError(NoInvestigationMessage)))
    else WriteFile(fs, PlanPath(taskId), Text(content), "Created ")
  }

  /** create_checklist: refused while SOLUTION_PLAN.md does not exist; then a
      `None` checklist becomes `[]`, the schema is checked, and CHECKLIST.json
      is replaced by exactly that value, never merged with the old one. */
  function CreateChecklist(fs: FileSystem, taskId: string, checklist: Json): (r: Reply<string>)
    ensures r.out == Err(ValueError(NoPlanMessage)) <==> !Exists(fs, PlanPath(taskId))
    ensures r.out == Err(ValidationError)
        <==> Exists(fs, PlanPath(taskId)) && !IsChecklist(NoneAsEmpty(checklist))
    ensures r.out.Err? ==> r.fs == fs
    ensures r.out.Ok? ==> r.out.value == "Created " + ChecklistPath(taskId)
    ensures r.out.Ok? ==> IsChecklist(NoneAsEmpty(checklist))
    ensures r.out.Ok? ==> r.fs == fs.(files := fs.files[ChecklistPath(taskId) := JsonDoc(NoneAsEmpty(checklist))])
    ensures WellFormed(fs) ==> WellFormed(r.fs)
  {
    if !Exists(fs, PlanPath(taskId)) then Reply(fs, Err(ValueError(NoPlanMessage)))
    else
      var items := NoneAsEmpty(checklist);
      if !IsChecklist(items) then Reply(fs, Err(ValidationError))
      else WriteFile(fs, ChecklistPath(taskId), JsonDoc(items), "Created ")
  }

  /** update_checklist: the schema is checked first, so an invalid checklist
      is refused even when CHECKLIST.json is missing; a valid one is refused
      only if the file does not exist; success replaces the file entirely. */
  function UpdateChecklist(fs: FileSystem, taskId: string, checklist: Json): (r: Reply<string>)
    ensures r.out == Err(ValidationError) <==> !IsChecklist(checklist)
    ensures r.out == Err(FileNotFoundError(NoChecklistMessage))
        <==> IsChecklist(checklist) && !Exists(fs, ChecklistPath(taskId))
    ensures r.out.Err? ==> r.fs == fs
    ensures r.out.Ok? ==> r.out.value == "Updated " + ChecklistPath(taskId)
    ensures r.out.Ok? ==> r.fs == fs.(files := fs.files[ChecklistPath(taskId) := JsonDoc(checklist)])
    ensures r.out.Ok? ==> ChecklistPath(taskId) in fs.files
    ensures WellFormed(fs) && ChecklistPath(taskId) in fs.files && IsChecklist(checklist) ==> r.out.Ok?
    ensures WellFormed(fs) ==> WellFormed(r.fs)
  {
    if !IsChecklist(checklist) then Reply(fs, Err(ValidationError))
    else if !Exists(fs, ChecklistPath(taskId)) then Reply(fs, Err(FileNotFoundError(NoChecklistMessage)))
    else WriteFile(fs, ChecklistPath(taskId), JsonDoc(checklist), "Updated ")
  }

  /** `open(path, "w")` followed by the confirmation `verb + path`. */
  function WriteFile(fs: FileSystem, path: string, c: Content, verb: string): (r: Reply<string>)
    ensures r.out.Ok? <==> path !in fs.dirs && ParentExists(fs, path)
    ensures r.out.Err? ==> r.fs == fs && IsOsError(r.out.error)
    ensures r.out.Ok? ==> r.out.value == verb + path
    ensures r.out.Ok? ==> r.fs == fs.(files := fs.files[path := c])
    ensures WellFormed(fs) ==> WellFormed(r.fs)
  {
    match Write(fs, path, c)
    case Err(e) => Reply(fs, Err(e))
    case Ok(fs') =>
      assert fs'.files == fs.files[path := c];
      Reply(fs', Ok(verb + path))
  }

  lemma MakeDirsKeepsWellFormedIf(fs: FileSystem, d: string)
    requires MakeDirs(fs, d).Ok?
    ensures WellFormed(fs) ==> WellFormed(MakeDirs(fs, d).value)
  {
    if WellFormed(fs) {
      MakeDirsKeepsWellFormed(fs, d);
    }
  }

  // ---------------------------------------------------------------------
  // Only the filesystem can make the later writers fail
  // ---------------------------------------------------------------------

  /** Once INVESTIGATION.md is a regular file, its folder exists, so writing
      the plan beside it fails only if SOLUTION_PLAN.md is a directory. */
  lemma SolutionPlanWritable(fs: FileSystem, taskId: string, content: string)
    requires WellFormed(fs) && InvestigationPath(taskId) in fs.files
    ensures CreateSolutionPlan(fs, taskId, content).out.Ok? <==> PlanPath(taskId) !in fs.dirs
  {
    ArtifactNames();
    TaskDirIndependentOfFile(taskId, InvestigationFile, SolutionPlanFile);
  }

  /** Likewise a valid checklist is written beside an existing plan file. */
  lemma ChecklistWritable(fs: FileSystem, taskId: string, checklist: Json)
    requires WellFormed(fs) && PlanPath(taskId) in fs.files
    requires IsChecklist(NoneAsEmpty(checklist))
    ensures CreateChecklist(fs, taskId, checklist).out.Ok? <==> ChecklistPath(taskId) !in fs.dirs
  {
    ArtifactNames();
    TaskDirIndependentOfFile(taskId, SolutionPlanFile, ChecklistFile);
  }

  // ---------------------------------------------------------------------
  // Corrected writers and the workflow order they maintain
  // ---------------------------------------------------------------------

  /** create_solution_plan with the guard `os.path.isfile`. */
  function CreateSolutionPlanStrict(fs: FileSystem, taskId: string, content: string): (r: Reply<string>)
    ensures r.out == Err(ValueError(NoInvestigationMessage)) <==> InvestigationPath(taskId) !in fs.files
    ensures r.out.Err? ==> r.fs == fs
    ensures r.out.Ok? ==> r.fs == fs.(files := fs.files[PlanPath(taskId) := Text(content)])
    ensures WellFormed(fs) ==> WellFormed(r.fs)
  {
    if InvestigationPath(taskId) !in fs.files then Reply(fs, Err(ValueError(NoInvestigationMessage)))
    else WriteFile(fs, PlanPath(taskId), Text(content), "Created ")
  }

  /** create_checklist with the guard `os.path.isfile`. */
  function CreateChecklistStrict(fs: FileSystem, taskId: string, checklist: Json): (r: Reply<string>)
    ensures r.out == Err(ValueError(NoPlanMessage)) <==> PlanPath(taskId) !in fs.files
    ensures r.out == Err(ValidationError)
        <==> PlanPath(taskId) in fs.files && !IsChecklist(NoneAsEmpty(checklist))
    ensures r.out.Err? ==> r.fs == fs
    ensures r.out.Ok? ==> r.fs == fs.(files := fs.files[ChecklistPath(taskId) := JsonDoc(NoneAsEmpty(checklist))])
    ensures WellFormed(fs) ==> WellFormed(r.fs)
  {
    if PlanPath(taskId) !in fs.files then Reply(fs, Err(ValueError(NoPlanMessage)))
    else
      var items := NoneAsEmpty(checklist);
      if !IsChecklist(items) then Reply(fs, Err(ValidationError))
      else WriteFile(fs, ChecklistPath(taskId), JsonDoc(items), "Created ")
  }

  /** The workflow order over regular files: for every task, a plan file
      implies an investigation file and a checklist file implies a plan file. */
  ghost predicate OrderedTasks(fs: FileSystem) {
    forall t ::
      && (PlanPath(t) in fs.files ==> InvestigationPath(t) in fs.files)
      && (ChecklistPath(t) in fs.files ==> PlanPath(t) in fs.files)
  }

  /** One call of a writer tool. */
  datatype Call =
    | Investigate(taskId: string, content: string)
    | Plan(taskId: string, content: string)
    | MakeChecklist(taskId: string, checklist: Json)
    | Update(taskId: string, checklist: Json)

  function ApplyStrict(fs: FileSystem, c: Call): Reply<string> {
    match c
    case Investigate(t, content) => CreateInvestigation(fs, t, content)
    case Plan(t, content) => CreateSolutionPlanStrict(fs, t, content)
    case MakeChecklist(t, cl) => CreateChecklistStrict(fs, t, cl)
    case Update(t, cl) => UpdateChecklist(fs, t, cl)
  }

  /** The filesystem after a sequence of calls, failed ones included. */
  function RunStrict(fs: FileSystem, calls: seq<Call>): FileSystem
    decreases |calls|
  {
    if calls == [] then fs else RunStrict(ApplyStrict(fs, calls[0]).fs, calls[1..])
  }

  /** Task files with the same relative name coincide when the task
      prefixes do. */
  lemma SamePrefixSamePath(t1: string, t2: string, f: string)
    requires TaskPrefix(t1) == TaskPrefix(t2) && !IsAbsolute(f)
    ensures TaskPath(t1, f) == TaskPath(t2, f)
  {
    TaskPathShape(t1, f);
    TaskPathShape(t2, f);
  }

  /** Distinct artifact names never name the same file, whatever the tasks. */
  lemma ArtifactsDistinct(t1: string, t2: string)
    ensures InvestigationPath(t1) != PlanPath(t2)
    ensures InvestigationPath(t1) != ChecklistPath(t2)
    ensures PlanPath(t1) != ChecklistPath(t2)
  {
    ArtifactNames();
    TaskPathsDistinct(t1, InvestigationFile, t2, SolutionPlanFile);
    TaskPathsDistinct(t1, InvestigationFile, t2, ChecklistFile);
    TaskPathsDistinct(t1, SolutionPlanFile, t2, ChecklistFile);
  }

  lemma InvestigateKeepsOrder(fs: FileSystem, taskId: string, content: string)
    requires OrderedTasks(fs)
    ensures OrderedTasks(CreateInvestigation(fs, taskId, content).fs)
  {
    var fs' := CreateInvestigation(fs, taskId, content).fs;
    forall t
      ensures PlanPath(t) in fs'.files ==> InvestigationPath(t) in fs'.files
      ensures ChecklistPath(t) in fs'.files ==> PlanPath(t) in fs'.files
    {
      ArtifactsDistinct(taskId, t);
    }
  }

  lemma PlanStrictKeepsOrder(fs: FileSystem, taskId: string, content: string)
    requires OrderedTasks(fs)
    ensures OrderedTasks(CreateSolutionPlanStrict(fs, taskId, content).fs)
  {
    var r := CreateSolutionPlanStrict(fs, taskId, content);
    if r.out.Ok? {
      assert InvestigationPath(taskId) in fs.files;
      assert r.fs.files == fs.files[PlanPath(taskId) := Text(content)];
      forall t
        ensures PlanPath(t) in r.fs.files ==> InvestigationPath(t) in r.fs.files
        ensures ChecklistPath(t) in r.fs.files ==> PlanPath(t) in r.fs.files
      {
        PlanWriteKeepsTask(fs.files, taskId, Text(content), t);
      }
    }
  }

  /** Adding the plan of a task whose investigation exists keeps the order of
      every task `t`. */
  lemma PlanWriteKeepsTask(files: map<string, Content>, taskId: string, c: Content, t: string)
    requires InvestigationPath(taskId) in files
    requires PlanPath(t) in files ==> InvestigationPath(t) in files
    requires ChecklistPath(t) in files ==> PlanPath(t) in files
    ensures PlanPath(t) in files[PlanPath(taskId) := c] ==> InvestigationPath(t) in files[PlanPath(taskId) := c]
    ensures ChecklistPath(t) in files[PlanPath(taskId) := c] ==> PlanPath(t) in files[PlanPath(taskId) := c]
  {
    ArtifactsDistinct(taskId, t);
    if PlanPath(t) == PlanPath(taskId) {
      SamePlanSameInvestigation(t, taskId);
    }
  }

  /** Two tasks with the same plan path have the same investigation path. */
  lemma SamePlanSameInvestigation(t1: string, t2: string)
    requires PlanPath(t1) == PlanPath(t2)
    ensures InvestigationPath(t1) == InvestigationPath(t2)
  {
    ArtifactNames();
    TaskPathInjective(t1, SolutionPlanFile, t2, SolutionPlanFile);
    SamePrefixSamePath(t1, t2, InvestigationFile);
  }

  lemma ChecklistStrictKeepsOrder(fs: FileSystem, taskId: string, checklist: Json)
    requires OrderedTasks(fs)
    ensures OrderedTasks(CreateChecklistStrict(fs, taskId, checklist).fs)
  {
    var r := CreateChecklistStrict(fs, taskId, checklist);
    if r.out.Ok? {
      var fs' := r.fs;
      forall t
        ensures PlanPath(t) in fs'.files ==> InvestigationPath(t) in fs'.files
        ensures ChecklistPath(t) in fs'.files ==> PlanPath(t) in fs'.files
      {
        ArtifactsDistinct(t, taskId);
        if ChecklistPath(t) == ChecklistPath(taskId) {
          ArtifactNames();
          TaskPathInjective(t, ChecklistFile, taskId, ChecklistFile);
          SamePrefixSamePath(t, taskId, SolutionPlanFile);
        }
      }
    }
  }

  /** update_checklist only rewrites a checklist file that is already there. */
  lemma UpdateKeepsOrder(fs: FileSystem, taskId: string, checklist: Json)
    requires OrderedTasks(fs)
    ensures OrderedTasks(UpdateChecklist(fs, taskId, checklist).fs)
  {
    var r := UpdateChecklist(fs, taskId, checklist);
    assert r.fs.files.Keys == fs.files.Keys;
  }

  lemma ApplyStrictKeepsOrder(fs: FileSystem, c: Call)
    requires OrderedTasks(fs)
    ensures OrderedTasks(ApplyStrict(fs, c).fs)
  {
    match c
    case Investigate(t, content) => InvestigateKeepsOrder(fs, t, content);
    case Plan(t, content) => PlanStrictKeepsOrder(fs, t, content);
    case MakeChecklist(t, cl) => ChecklistStrictKeepsOrder(fs, t, cl);
    case Update(t, cl) => UpdateKeepsOrder(fs, t, cl);
  }

  /** Under the corrected guards no sequence of writer calls can produce a
      plan without an investigation or a checklist without a plan. */
  lemma {:induction false} RunStrictKeepsOrder(fs: FileSystem, calls: seq<Call>)
    requires OrderedTasks(fs)
    ensures OrderedTasks(RunStrict(fs, calls))
    decreases |calls|
  {
    if calls != [] {
      ApplyStrictKeepsOrder(fs, calls[0]);
      RunStrictKeepsOrder(ApplyStrict(fs, calls[0]).fs, calls[1..]);
    }
  }

  /** As written, the existence guard is satisfied by a directory: creating
      the investigation of task "t/SOLUTION_PLAN.md" makes the folder
      .tasks/t/SOLUTION_PLAN.md, after which task "t" gets a checklist
      although it has no plan file (nor an investigation). */
  lemma ExistsGuardAdmitsDirectory(t: string)
    requires t != "" && !IsAbsolute(t) && !EndsWithSep(t)
    ensures var fs1 := CreateInvestigation(Empty, t + [Sep] + SolutionPlanFile, "x");
            var r := CreateChecklist(fs1.fs, t, JArray([]));
            && fs1.out.Ok?
            && r.out.Ok?
            && ChecklistPath(t) in r.fs.files
            && PlanPath(t) !in r.fs.files
            && !OrderedTasks(r.fs)
  {
    NestedInvestigationMade(t);
    PlanFolderAdmitsChecklist(CreateInvestigation(Empty, t + [Sep] + SolutionPlanFile, "x").fs, t);
  }

  /** Whenever the plan path is a folder, create_checklist writes the
      checklist beside it, and the task is out of order. */
  lemma PlanFolderAdmitsChecklist(fs: FileSystem, taskId: string)
    requires PlanPath(taskId) in fs.dirs && PlanPath(taskId) !in fs.files
    requires ChecklistPath(taskId) !in fs.dirs && ParentExists(fs, ChecklistPath(taskId))
    ensures var r := CreateChecklist(fs, taskId, JArray([]));
            && r.out.Ok?
            && ChecklistPath(taskId) in r.fs.files
            && PlanPath(taskId) !in r.fs.files
            && !OrderedTasks(r.fs)
  {
    var r := CreateChecklist(fs, taskId, JArray([]));
    assert r.out.Ok? && r.fs.files == fs.files[ChecklistPath(taskId) := JsonDoc(JArray([]))];
    ArtifactsDistinct(taskId, taskId);
    OutOfOrder(r.fs, taskId);
  }

  /** A checklist file without a plan file breaks the workflow order. */
  lemma OutOfOrder(fs: FileSystem, taskId: string)
    requires ChecklistPath(taskId) in fs.files && PlanPath(taskId) !in fs.files
    ensures !OrderedTasks(fs)
  {
  }

  /** The first step of `ExistsGuardAdmitsDirectory`: the investigation of
      task "t/SOLUTION_PLAN.md" leaves task "t"'s plan path a folder and not
      a file, and its checklist path free to be written. */
  lemma NestedInvestigationMade(t: string)
    requires t != "" && !IsAbsolute(t) && !EndsWithSep(t)
    ensures var r := CreateInvestigation(Empty, t + [Sep] + SolutionPlanFile, "x");
            && r.out.Ok?
            && PlanPath(t) in r.fs.dirs
            && PlanPath(t) !in r.fs.files
            && ChecklistPath(t) !in r.fs.dirs
            && ParentExists(r.fs, ChecklistPath(t))
  {
    var nested := t + [Sep] + SolutionPlanFile;
    NestedPlanFolder(t);
    FirstInvestigation(nested, "x");
    ArtifactsDistinct(nested, t);
  }

  /** On an empty filesystem, the first investigation creates exactly its
      task folder with the ancestors and the one file. */
  lemma FirstInvestigation(taskId: string, content: string)
    requires !AllSeps(TaskDir(taskId))
    ensures var r := CreateInvestigation(Empty, taskId, content);
            && r.out.Ok?
            && r.fs.dirs == Ancestors(TaskDir(taskId))
            && r.fs.files == map[InvestigationPath(taskId) := Text(content)]
  {
    assert TaskDirCreatable(Empty, taskId);
  }

  /** Path facts behind `ExistsGuardAdmitsDirectory`: the folder of task
      "t/SOLUTION_PLAN.md" is the plan path of task "t", and making it makes
      the folder of task "t" but not its checklist path. */
  lemma NestedPlanFolder(t: string)
    requires t != "" && !IsAbsolute(t) && !EndsWithSep(t)
    ensures TaskDir(t + [Sep] + SolutionPlanFile) == PlanPath(t)
    ensures !AllSeps(PlanPath(t))
    ensures DirName(ChecklistPath(t)) in Ancestors(PlanPath(t))
    ensures ChecklistPath(t) !in Ancestors(PlanPath(t))
  {
    ArtifactNames();
    var nested := t + [Sep] + SolutionPlanFile;
    var q := BaseDir + [Sep] + t;
    var p := q + [Sep];
    TaskDirNested(nested, InvestigationFile);
    assert BaseDir + [Sep] + nested == p + SolutionPlanFile;
    TaskPathNested(t, SolutionPlanFile);
    TaskPathNested(t, ChecklistFile);
    TaskDirNested(t, ChecklistFile);
    assert PlanPath(t)[0] == '.';
    FolderIsAncestor(q, SolutionPlanFile);
    assert SolutionPlanFile[0] == 'S' && ChecklistFile[0] == 'C';
    SiblingNotAncestor(p, SolutionPlanFile, ChecklistFile);
  }

  /** The smallest instance: task ids "t/SOLUTION_PLAN.md" and "t". */
  lemma ExistsGuardAdmitsDirectoryExample()
    ensures var fs1 := CreateInvestigation(Empty, "t/SOLUTION_PLAN.md", "x");
            var r := CreateChecklist(fs1.fs, "t", JArray([]));
            r.out.Ok? && !OrderedTasks(r.fs)
  {
    assert "t" + [Sep] + SolutionPlanFile == "t/SOLUTION_PLAN.md";
    ExistsGuardAdmitsDirectory("t");
  }
}
